=== FILE: README.md ===
# slipscan core, modelled in Dafny

`slipscan_cli.py` finds DNS-tunnel resolvers. It reads candidate IPv4
targets from a file or from `--targets` words. Each target gets a raw DNS
query, and an address that answers with NOERROR or NXDOMAIN counts as
alive. A subset of the live addresses is then "real-tested": a
`slipstream` client is started against the address, and an HTTPS request
to `www.google.com:443` is made through the client's local SOCKS5 proxy.

This project models the parts of that program that are pure logic:

- **Target enumeration** (`tokens.dfy`, `targets.dfy`, with `ipv4.dfy`
  and `text.dfy`). This covers:
  - comment and separator cleaning of lines;
  - token classification as address, CIDR block or skipped word;
  - CIDR parsing with Python `ipaddress` rules, full expansion and
    `random.sample` sampling;
  - the up-front target count;
  - the cancellable target generator for both sources.
- **The DNS probe** (`dns.dfy`): the query bytes `_encode_dns_query`
  writes (with a decoder as partner), the RCODE field, and the verdict
  table of `fast_dns_tunnel_check`.
- **SOCKS5 and the real test** (`socks.dfy`):
  - the greeting checks of the readiness probe and of the real test;
  - the CONNECT request (with a decoder and a UTF-8 decoder as partners);
  - the stage-by-stage result of `_real_ping_via_socks`;
  - readiness polling;
  - the `(status, ms)` pair of `realtest_one`.
- **The dashboard state** (`dashboard.dfy`):
  - the counters;
  - the bounded, insertion-ordered table that `RichDashboard._touch_ok`
    keeps;
  - `update_scan`, `update_realtest` and `inc_rt_enq`.
- **The commands** (`commands.dfy`):
  - the worker count;
  - the forwarding of scan hits to real testing (`auto=off|end|live`,
    `--realtest-ms-max`);
  - the address list of `cmd_realtest` and its de-duplication;
  - one dashboard round of `cmd_realtest`.

Everything that touches the outside world becomes a parameter:

- what a socket returned or that it timed out (`Dns.Reply`,
  `Socks.Exchange`);
- the elapsed milliseconds;
- the offsets `random.sample` drew (`IPv4.IsDraw`, `Targets.DrawsFor`);
- the transaction id and random query label;
- the point at which the stop event becomes visible
  (`stop: Option<nat>`, the number of targets yielded by then);
- the readiness rounds that fit before the deadline `Socks.ReadyWaitMs`
  (`Socks.Poll`).

Python strings are `string`, bytes are `seq<byte>`, integers are
unbounded. The places where Python raises are modelled as `Option`
results:

- `bytes([n])` with `n > 255`;
- `to_bytes` out of range;
- the `KeyError`/`IndexError` of the dashboard table.

Two behaviours of the code worth knowing:

- **The mixed-input rule.** The rule that a single plain address disables
  CIDR sampling is applied to target files only (`slipscan_cli.py:545-547`);
  `--targets` words are never checked for it (`Targets.ScanMode`).
- **`--targets` words are not cleaned.** The generator for `--targets`
  parses the raw words, whereas the count cleans them first. For example,
  `--targets 192.0.2.1,192.0.2.2` counts two targets and yields none (see
  Findings).

## Model

| member | source | states |
|---|---|---|
| Basics.FirstOccurrencesSpec | slipscan_cli.py:807-813 | de-duplicating with a seen-set leaves no repeats, keeps exactly the members of the input and never lengthens it |
| Basics.FirstOccurrencesOfNoDup | slipscan_cli.py:807-813 | a list without repeats passes through de-duplication unchanged |
| Text.Strip | slipscan_cli.py:44 | `str.strip()` leaves no whitespace at either end, adds no character and leaves already-stripped text alone |
| Text.StripIdempotent | slipscan_cli.py:44 | stripping twice is stripping once |
| Text.SplitWsJoin | slipscan_cli.py:68 | `str.split()` recovers the words that a single-space join of non-empty, space-free words produced |
| Text.SplitOnJoin | slipscan_cli.py:193 | `str.split('.')` recovers dot-free pieces from their dot join |
| Text.JoinSplitOn | slipscan_cli.py:193 | joining the pieces of `str.split(c)` with c gives back the original text |
| Text.DecimalRoundTrip | slipscan_cli.py:363 | `int(str(n)) == n` for every non-negative n |
| Text.CanonicalRoundTrip | slipscan_cli.py:36-41 | a digit string without a leading zero is `str` of its own value |
| Text.MsLabel | slipscan_cli.py:683 | the ms column is "-" exactly for a negative latency and otherwise parses back to the latency |
| IPv4.ParseFormat | slipscan_cli.py:36-41 | every address's dotted-quad text parses back to that address |
| IPv4.FormatParse | slipscan_cli.py:36-41 | text that parses as an address is already in `str(IPv4Address)` form (no leading zeros, four octets) |
| IPv4.FormatInjective | slipscan_cli.py:36-41 | different addresses have different texts |
| IPv4.ParsePrefix | slipscan_cli.py:89 | a network suffix is accepted only as a prefix length of at most 32, given as digits, a netmask or a host mask |
| IPv4.ParseNetwork | slipscan_cli.py:89 | a parsed network (non-strict) is aligned to its size and lies inside the IPv4 space |
| IPv4.PrefixOfDigits | slipscan_cli.py:89 | the suffix `str(p)` is read as prefix length p, for every p up to 32 |
| IPv4.PrefixOfNetmask | slipscan_cli.py:89 | the dotted netmask of prefix length p is read as p |
| IPv4.PrefixOfHostmask | slipscan_cli.py:89 | the dotted host mask of prefix length p is read as p, for 0 < p < 32 where it is not also a netmask |
| IPv4.ParseNetworkPrefix | slipscan_cli.py:89 | `ip_network("a/p", strict=False)` is the block of prefix length p holding a, with its host bits cleared |
| IPv4.ParseNetworkNetmask | slipscan_cli.py:89 | "a/netmask" gives the same block as "a/p" |
| IPv4.ParseNetworkHostmask | slipscan_cli.py:89 | "a/hostmask" gives the same block as "a/p", for 0 < p < 32 |
| IPv4.ParseNetworkAddress | slipscan_cli.py:89 | a bare address parses as the /32 block holding only itself |
| IPv4.AddressesSpec | slipscan_cli.py:151-159 | full expansion lists `size` distinct addresses, offset `off` holding `network_address + off` |
| IPv4.Expand | slipscan_cli.py:148-159 | the expansion of an unparsable block is empty; otherwise it lists exactly the block's addresses in order, with no repeats |
| IPv4.PickedSpec | slipscan_cli.py:100-101 | distinct drawn offsets give distinct addresses, each the network address plus its offset |
| IPv4.Sample | slipscan_cli.py:87-102 | a sample has `min(max(0,k), size)` distinct members, all in the block's full expansion, and is empty for an unparsable block |
| Tokens.StripPort | slipscan_cli.py:43-47 | the result has no ':', is stripped, and is the stripped input when that had no ':' |
| Tokens.ParseToken | slipscan_cli.py:49-58 | a token is a CIDR exactly when its stripped text holds '/', and an address exactly otherwise when its port-stripped text parses |
| Tokens.IpTokenCanonical | slipscan_cli.py:55-57 | an accepted address token is already canonical address text |
| Tokens.AddressToken | slipscan_cli.py:55-57 | `host` and `host:port` classify as the same address |
| Tokens.DotlessHostSkipped | slipscan_cli.py:49-58 | a word without '/' whose host part has no '.' is dropped |
| Tokens.CleanLine | slipscan_cli.py:60-71 | every token cleaned from a line is non-empty and free of whitespace, ',', ';', '#' and "//"; a line that starts with '#' or "//" after stripping gives no tokens |
| Tokens.CleanLineHashComment | slipscan_cli.py:60-71 | appending " #" and any comment to a line leaves its tokens unchanged |
| Tokens.CleanLineSlashComment | slipscan_cli.py:60-71 | appending " //" and any comment to a line leaves its tokens unchanged |
| Tokens.CleanLineJoin | slipscan_cli.py:60-71 | cleaning a space-joined line of clean tokens gives back those tokens |
| Tokens.CleanTokensOfClean | slipscan_cli.py:60-71 | a list of clean tokens, one per line, passes through cleaning unchanged |
| Tokens.CleanTokensIdempotent | slipscan_cli.py:60-71 | cleaning is idempotent |
| Targets.BlocksCount | slipscan_cli.py:106-121 | the blocks the generator would yield add up to the count `_count_targets_in_lines` computes, token by token |
| Targets.CidrTargets | slipscan_cli.py:141-159 | a CIDR token yields as many addresses as the count charges for it |
| Targets.TokenTargetsCanonical | slipscan_cli.py:137-159 | every address any token yields is canonical address text |
| Targets.EmitCheckedPrefix | slipscan_cli.py:143-146 | a loop that checks the stop event before every yield emits a prefix of its list, cut at the stop point |
| Targets.ProducePrefix | slipscan_cli.py:133-159 | the generator with a stop event yields a prefix of the unstopped stream, cut where the stop event is first seen |
| Targets.StreamMatchesCount | slipscan_cli.py:106-185 | unstopped, the generator yields exactly the count, all canonical addresses; stopped after s targets, it yields the first `min(s, count)` of them |
| Targets.ScanMode | slipscan_cli.py:542-547 | sampling is on exactly when k > 0 and the source is not a target file holding a plain address, and then samples `random_k` addresses per block |
| Targets.ScanStreamYieldsTotal | slipscan_cli.py:549-552 | when both sides clean their tokens, the producer yields exactly `total`, so `while done < total` ends |
| Targets.FileStreamYieldsTotal | slipscan_cli.py:133-159 | for a target file the producer as written already yields exactly `total` |
| Targets.CleanListAgrees | slipscan_cli.py:161-185 | `--targets` words that are already clean give the same stream as written and corrected |
| Targets.TrailingCommaMismatch | slipscan_cli.py:161-165 | a `--targets` word "a.b.c.d," is counted as one target but yields none |
| Dns.AsciiBytesOfAscii | slipscan_cli.py:195 | `encode("ascii","ignore")` of ASCII text is one byte per character, each the character's code |
| Dns.Header | slipscan_cli.py:192 | the header is 12 bytes |
| Dns.DecodeEncode | slipscan_cli.py:190-197 | the corrected query decodes back to its transaction id and the ASCII bytes of each dot-separated label |
| Dns.QueryFrame | slipscan_cli.py:192-196 | the query carries the big-endian id, flags 0x0100, one question and type A class IN after the name's terminator |
| Dns.NonAsciiBreaksQuery | slipscan_cli.py:194-195 | for "éx" the query as written is malformed, while the corrected one decodes to the label "x" |
| Dns.AsWrittenAgreesOnAscii | slipscan_cli.py:190-197 | on ASCII names the query as written and the corrected one are the same bytes |
| Dns.QueryLength | slipscan_cli.py:190-197 | an ASCII name's query is 18 bytes longer than the name with its dots trimmed |
| Dns.QueryNameLabels | slipscan_cli.py:205 | the probe name is the six-digit label followed by the labels of the dot-trimmed domain |
| Dns.Rcode | slipscan_cli.py:199-202 | the RCODE is absent exactly for replies shorter than 4 bytes, and is below 16 |
| Dns.RcodeField | slipscan_cli.py:199-202 | the RCODE is the low four bits of byte 3, whatever the RA and Z bits hold |
| Dns.SocketTimeoutMs | slipscan_cli.py:209 | the socket timeout is the requested one with a 50 ms floor |
| Dns.Classify | slipscan_cli.py:210-235 | a target is alive exactly when a reply came with RCODE 0 or 3; the latency is kept for every reply and is -1 for a timeout or error |
| Dns.StatusNamesOutcome | slipscan_cli.py:210-235 | the status reads back as what happened: "OK (Resolved)", "Tunnel Alive (NX)", "ServFail", "Refused" or "RCODE n" for the reply's RCODE, "BadResp" for a reply too short to hold one, "TIMEOUT" for a timeout and "ERROR" for any other failure |
| Dns.StatusUnique | slipscan_cli.py:210-235 | no other text reads back as the same outcome, so each outcome has exactly one label |
| Dns.NameWithNone | slipscan_cli.py:190-197 | building the name raises exactly when some label is longer than 255 |
| Dns.Probe | slipscan_cli.py:204-235 | the probe raises before its `try` exactly when a label of the query name is longer than 255 characters; otherwise its verdict is alive and labelled by the reply's outcome, with the latency kept for a reply and -1 for a timeout or error |
| Socks.Utf8Char | slipscan_cli.py:331 | a character encodes to 1 to 4 bytes, and to one byte exactly when it is ASCII |
| Socks.DecodeUtf8RoundTrip | slipscan_cli.py:331 | the UTF-8 bytes of a host decode back to its code points |
| Socks.Utf8OfAscii | slipscan_cli.py:331 | an ASCII host is sent one byte per character |
| Socks.GreetingOffersNoAuth | slipscan_cli.py:297-299 | the greeting `05 01 00` offers only method 0 (no authentication); the readiness probe accepts exactly the reply "version 5, method 0", and the real test (lines 326-329) any two-byte reply selecting the offered method |
| Socks.ProbeStricter | slipscan_cli.py:298-329 | every greeting reply the readiness probe accepts is accepted by the real test, which also accepts a wrong version byte |
| Socks.ConnectRequest | slipscan_cli.py:331-332 | the CONNECT request exists exactly when the host is at most 255 UTF-8 bytes and the port fits 16 bits, and it is 7 bytes longer than the host |
| Socks.ConnectRoundTrip | slipscan_cli.py:331-332 | the CONNECT request decodes back to the host's UTF-8 bytes and the port |
| Socks.PingRequests | slipscan_cli.py:326-332 | the real test always sends the greeting first, and sends the CONNECT request second exactly when the greeting was accepted and the request could be built; that request decodes to the host's bytes and the port |
| Socks.Broken | slipscan_cli.py:346-349 | a stage that raised reports -1, with TIMEOUT exactly for `socket.timeout` and ERROR exactly for any other exception |
| Socks.RealPing | slipscan_cli.py:319-353 | the latency is non-negative exactly when every stage succeeded, and is then the elapsed time; otherwise it is -1 and the first stage to go wrong names the failure: a rejected greeting or CONNECT reply gives SOCKS FAIL, an unbuildable CONNECT request ERROR, and a stage that raised TIMEOUT or ERROR by its exception |
| Socks.PingStatusNamesMs | slipscan_cli.py:343-350 | the status ends in " ms" exactly on success, and then names the latency |
| Socks.WaitReady | slipscan_cli.py:306-317 | readiness is reached exactly when, in some round, the client had printed a line containing "ready" in any letter case (lines 269-271) or the probe was accepted |
| Socks.ReadyWaitMs | slipscan_cli.py:360 | the readiness deadline is the requested one with a 200 ms floor |
| Socks.TestRequest | slipscan_cli.py:362 | the request for `www.google.com:443` is well formed and decodes to that host and port |
| Socks.RealtestOne | slipscan_cli.py:355-369 | a missing client gives "SLIPSTREAM NOT FOUND" and a missed deadline "READY TIMEOUT", each with ms "-"; otherwise the ping's status (its latency, SOCKS FAIL, TIMEOUT or ERROR) is passed through, and the ms column is "-" exactly when the ping failed |
| Socks.RealtestColumnsAgree | slipscan_cli.py:355-369 | the ms column is not "-" exactly when the status ends in " ms", and both name the same latency |
| Socks.RealtestSuccess | slipscan_cli.py:355-369 | the ms column is a number exactly when the client was found, became ready and every SOCKS and TLS stage succeeded, and that number is the elapsed time |
| Dashboard.NewDash | slipscan_cli.py:390-421 | a new dashboard is consistent, has total `max(1, total_scan)`, every counter at 0, an empty table and the given `table_keep` |
| Dashboard.Drop | slipscan_cli.py:427-430 | eviction removes only what exceeds `table_keep`, and nothing when the table fits |
| Dashboard.EvictOrder | slipscan_cli.py:427-430 | eviction keeps the newest `table_keep` addresses in insertion order |
| Dashboard.EvictRows | slipscan_cli.py:427-430 | eviction removes exactly the rows of the evicted addresses and leaves the others' values alone |
| Dashboard.TouchOk | slipscan_cli.py:423-430 | touching fails (IndexError) only for a new address with a negative `table_keep`, and a known address changes nothing |
| Dashboard.TouchOkSpec | slipscan_cli.py:423-430 | touching keeps the table consistent, appends a new address with a blank row and evicts the oldest, keeps the new row when `table_keep >= 1`, and changes nothing else |
| Dashboard.UpdateScan | slipscan_cli.py:432-441 | a failed scan only counts; an ok scan writes its ms and status into the address's row |
| Dashboard.UpdateScanSpec | slipscan_cli.py:432-441 | with `table_keep >= 1` the update succeeds, keeps the table consistent, counts one scan as ok or failed, keeps the real-test columns; for an ok scan a new address goes to the newest end and only the oldest are evicted, other surviving rows keep their values; a failed scan leaves the table alone; no other field changes |
| Dashboard.UpdateRealtest | slipscan_cli.py:449-458 | a real-test update writes its columns into the row and counts one real test |
| Dashboard.UpdateRealtestSpec | slipscan_cli.py:449-458 | with `table_keep >= 1` the update succeeds, keeps the table consistent, counts it as ok or failed, keeps the scan columns; a new address goes to the newest end and only the oldest are evicted, other surviving rows keep their values; no other field changes |
| Dashboard.IncRtEnqueued | slipscan_cli.py:446-447 | `inc_rt_enq` raises the enqueued counter by one and changes nothing else |
| Dashboard.TouchAllKeepsFirstOccurrences | slipscan_cli.py:423-430 | touching a list that fits the table leaves the addresses in first-occurrence order |
| Commands.WorkerCount | slipscan_cli.py:541-558 | there is at least one worker, no more than the requested threads or the targets, and as many as the smaller of the two |
| Commands.PassesMonotone | slipscan_cli.py:694-699 | the ceiling test is strict, a failed scan (-1) never passes a ceiling, and a lower latency passes whenever a higher one does |
| Commands.StepWith | slipscan_cli.py:691-692 | an address is marked seen exactly when its scan is ok |
| Commands.FirstOkSome | slipscan_cli.py:689-692 | an address has a first ok result exactly when some ok result names it |
| Commands.KeepPassingNoDup | slipscan_cli.py:689-709 | filtering a list without repeats keeps it without repeats |
| Commands.ForwardedStep | slipscan_cli.py:689-709 | one result adds its address to the forwarded list exactly when it is ok, not seen before and within the ceiling |
| Commands.ForwardedNoDup | slipscan_cli.py:689-709 | no address is forwarded twice |
| Commands.RunSeen | slipscan_cli.py:689-692 | after any results, the seen set is the set of ok addresses |
| Commands.RunForwards | slipscan_cli.py:686-709 | the end list or the live queue holds exactly the forwarded addresses for its mode, and the dashboard counter runs `extra` ahead of the queue once it is non-empty |
| Commands.EndModeList | slipscan_cli.py:701-703 | in end mode the list holds each passing address once, in first-hit order, and nothing is queued |
| Commands.LiveModeQueue | slipscan_cli.py:701-709 | in live mode the queue holds each passing address once, and the corrected dashboard counter equals the queue length |
| Commands.OffModeForwardsNothing | slipscan_cli.py:701-704 | with auto off nothing is forwarded |
| Commands.LiveCounterAsWritten | slipscan_cli.py:705-709 | as written, the dashboard counter is one more than the number queued once anything is queued |
| Commands.ListEntry | slipscan_cli.py:797-799 | an accepted list line gives a stripped, port-free, valid address |
| Commands.ReadListCanonical | slipscan_cli.py:793-805 | every address read from the list is canonical address text |
| Commands.ListEntryOfAddress | slipscan_cli.py:797-799 | a line `a.b.c.d` or `a.b.c.d:port` is read as that address |
| Commands.Dedup | slipscan_cli.py:807-813 | the loop keeps each address at its first occurrence, in order, without repeats |
| Commands.RealtestTargets | slipscan_cli.py:807-817 | the run is refused exactly when no address was read, and otherwise tests each address read once, in first-occurrence order |
| Commands.RealtestRoundSpec | slipscan_cli.py:839-846 | one round counts one ok scan and one real test, counts the real test ok exactly when its ms column is a number, and writes that address's row |

## Left out

- Sockets, clocks, subprocesses, files, stdin and the terminal are not modelled. Their outcomes are parameters (`Dns.Reply`, `Socks.Exchange`, `Socks.Poll`, elapsed milliseconds, lines of text). Nothing about timing is proved.
- `random.randint` and `random.sample` are not modelled as distributions. The drawn values are parameters, constrained to what the call can return.
- Threads, queues, locks, the producer's blocking `put`, the live drain loop with its deadline, and the end-mode real-test loop (`slipscan_cli.py:715-760`) are not modelled. Only the forwarding decisions they act on are.
- The TLS handshake and the HTTP request inside `_real_ping_via_socks` are not modelled. They are one `tls` exchange that succeeds or fails.
- `_start_slipstream`, `_stop_proc` and `_free_port` are not modelled. They handle process start-up and teardown. `realtest_one` takes "client found" as a parameter.
- Socks.RealtestOne: start-up errors other than `FileNotFoundError` are not modelled. `realtest_one` catches only that one (line 364). So an `OSError` from `_free_port()`, which runs before the `try` (line 356), escapes it uncaught. So does any other `Popen` failure, such as a `PermissionError` for a client that is not executable. In live mode this ends the real-test worker thread (line 646); in end mode and in `cmd_realtest` it ends the command. The model's `found` flag has only the two cases, so it does not describe these raises.
- Rendering (`render`, `_marquee_line`, `set_current_realtest`), the output writers and argument parsing are not modelled. They only display or pass on values.
- IPv6 is not modelled. `_is_ip` is only ever applied after `_strip_port`, which removes every ':', so an IPv6 literal never reaches it. `ip_network` of an IPv6 block is skipped by every caller, so the model treats it as unparsable.
- Python decodes text files with UTF-8 "ignore". Dafny strings hold Unicode scalar values, so lone surrogates, which "ignore" would drop, are not modelled.
- Dashboard.UpdateScan: with `table_keep <= 0` Python raises part-way, after `scan_done` and `scan_ok` have been incremented and after the eviction loop of `_touch_ok` (lines 428-430) has popped every row: `KeyError` at `rows_ok[ip]` (line 437) for 0, `IndexError` from `popleft` on the empty deque (line 429) for a negative bound. The model returns `None` instead and does not describe that partial state.
- Dashboard.UpdateRealtest: with `table_keep <= 0` it raises before counting (lines 454-458), so no counter has changed, but `_touch_ok` has already popped every row: `KeyError` at `rows_ok[ip]` (line 451) for 0, `IndexError` inside `_touch_ok` (line 429) for a negative bound. The model returns `None` and does not describe that emptied table.
- Dns.Probe: the exception raised before the `try` escapes the scan worker (line 633), so that target's result never reaches the result queue; the model stops at the `None` and does not follow the thread or the result loop further.
- Python's `ipaddress` rules are modelled as in Python 3.9.5 and later, which reject leading zeros in an octet. Earlier versions accept "1.2.3.04"; `Tokens.IpTokenCanonical`, `Commands.ReadListCanonical` and `Targets.TokenTargetsCanonical` hold only under the later rules.
- Socks.RealtestOne: the duration itself, as a number, is stated by `Socks.RealtestColumnsAgree` and `Socks.RealtestSuccess` rather than by its own contract.

## Findings

| source | as written | input that shows it | evidently intended | confidence | as-written member | corrected member |
|---|---|---|---|---|---|---|
| slipscan_cli.py:161-165 | `_iter_targets_tokens` parses raw `--targets` words, but `_count_targets_in_lines` cleans them first. A word with a comma or semicolon is counted but never yielded, so the result loop `while done < total` (line 663) waits forever | `--targets 1.2.3.4,` counts 1 and yields 0 targets | clean `--targets` words the same way for counting and for producing, so that the producer yields exactly `total` | not executed | Targets.TrailingCommaMismatch | Targets.ScanStreamYieldsTotal |
| slipscan_cli.py:194-195 | the label length byte is `len(p)` in characters, but the bytes after it are `p.encode("ascii", "ignore")`, which drops non-ASCII characters. The length byte then claims bytes that are not there, and the query is malformed | domain label "éx": length byte 2, followed by the single byte "x" | write the length of the encoded label | not executed | Dns.NonAsciiBreaksQuery | Dns.DecodeEncode |
| slipscan_cli.py:705-709 | live forwarding sets `dash.rt_enqueued = rt_enqueued` and then calls `dash.inc_rt_enq()`, so the "DONE=x/y" line (487-488) shows y one higher than the number of addresses queued | one ok scan result within the ceiling in live mode: 1 queued, dashboard shows 2 | set the counter or increment it, not both | not executed | Commands.LiveCounterAsWritten | Commands.LiveModeQueue |

=== FILE: basics.dfy ===
/** Shared vocabulary of the scanner model: optional values, octets, 16-bit
    fields, duplicate-free sequences and the order-preserving "first
    occurrence" view of a sequence that every deduplication in the scanner
    follows. */
module Basics {

  /** A value that may be absent (Python's `None`). */
  datatype Option<+T> = None | Some(value: T)

  /** One element of a Python `bytes` object. */
  type byte = b: int | 0 <= b < 0x100

  /** A 16-bit unsigned field: DNS transaction ids, header counts, TCP ports. */
  type u16 = n: int | 0 <= n < 0x1_0000

  function Min(a: int, b: int): int {
    if a <= b then a else b
  }

  function Max(a: int, b: int): int {
    if a >= b then a else b
  }

  /** 2 to the power e. */
  function Pow2(e: nat): (r: nat)
    ensures r >= 1
  {
    if e == 0 then 1 else 2 * Pow2(e - 1)
  }

  lemma {:induction false} Pow2Add(a: nat, b: nat)
    ensures Pow2(a + b) == Pow2(a) * Pow2(b)
    decreases a
  {
    if a > 0 {
      Pow2Add(a - 1, b);
      assert Pow2(a + b) == 2 * Pow2(a - 1 + b);
    }
  }

  /** No element occurs twice. */
  predicate NoDup<T(==)>(s: seq<T>) {
    forall i, j :: 0 <= i < j < |s| ==> s[i] != s[j]
  }

  /** The elements of s, each kept at its first occurrence, in their original
      order: the result of walking s once with a seen-set. */
  function FirstOccurrences<T(==)>(s: seq<T>): seq<T>
  {
    if |s| == 0 then []
    else
      var init := FirstOccurrences(s[..|s| - 1]);
      if s[|s| - 1] in s[..|s| - 1] then init else init + [s[|s| - 1]]
  }

  /** One more element is kept exactly when it is new. */
  lemma FirstOccurrencesSnoc<T>(s: seq<T>, x: T)
    ensures FirstOccurrences(s + [x]) == if x in s then FirstOccurrences(s) else FirstOccurrences(s) + [x]
  {
    assert (s + [x])[..|s|] == s;
  }

  /** Deduplication keeps every element exactly once and invents none. */
  lemma {:induction false} FirstOccurrencesSpec<T>(s: seq<T>)
    ensures NoDup(FirstOccurrences(s))
    ensures forall x :: x in FirstOccurrences(s) <==> x in s
    ensures |FirstOccurrences(s)| <= |s|
    decreases |s|
  {
    if |s| > 0 {
      var p := s[..|s| - 1];
      FirstOccurrencesSpec(p);
      assert s == p + [s[|s| - 1]];
    }
  }

  /** A sequence that already has no duplicates is its own deduplication. */
  lemma {:induction false} FirstOccurrencesOfNoDup<T>(s: seq<T>)
    requires NoDup(s)
    ensures FirstOccurrences(s) == s
    decreases |s|
  {
    if |s| > 0 {
      var p := s[..|s| - 1];
      assert NoDup(p);
      FirstOccurrencesOfNoDup(p);
      assert s[|s| - 1] !in p;
      assert p + [s[|s| - 1]] == s;
    }
  }
}

=== FILE: commands.dfy ===
/** The decisions the two commands make around the probes: how many scan
    workers to start, which scan results go on to the real test, how the
    `realtest` command reads and deduplicates its address list, and how one
    real-test round lands on the dashboard. */
module Commands {
  import opened Basics
  import opened Text
  import opened IPv4
  import opened Tokens
  import Dashboard
  import Socks

  // --------------------------------------------------------------- workers

  /** `min(threads, max(1, total))` with `threads = max(1, --threads)`: at
      least one worker, never more than asked for, never more than there
      are targets (or one, with no targets). */
  function WorkerCount(threadsArg: int, total: int): (r: int)
    ensures 1 <= r <= Max(1, threadsArg) && r <= Max(1, total)
    ensures r == Max(1, threadsArg) || r == Max(1, total)
  {
    Min(Max(1, threadsArg), Max(1, total))
  }

  // ------------------------------------------------------------ forwarding

  /** `--auto-realtest`: off, after the scan ("end"), or during it ("live"). */
  datatype AutoMode = Off | End | Live

  /** One scan result as the main loop reads it: address, verdict, latency
      in milliseconds (-1 when there was no reply). */
  datatype ScanResult = ScanResult(ip: string, ok: bool, ms: int)

  /** The latency ceiling `--realtest-ms-max`: with none, every result
      passes; with one, only a measured latency below it. */
  predicate Passes(ms: int, msMax: Option<int>) {
    msMax.None? || (0 <= ms && ms < msMax.value)
  }

  /** The ceiling is strict: a latency equal to it fails. A latency that
      passes a ceiling passes every higher one, and a lower measured latency
      passes whenever a higher one does. */
  lemma PassesMonotone(ms: int, ms2: int, a: int, b: int)
    ensures Passes(ms, Some(a)) && a <= b ==> Passes(ms, Some(b))
    ensures Passes(ms, Some(a)) && 0 <= ms2 <= ms ==> Passes(ms2, Some(a))
    ensures !Passes(-1, Some(a)) && Passes(-1, None)
    ensures 0 <= a ==> !Passes(a, Some(a)) && (a > 0 ==> Passes(a - 1, Some(a)))
  {
  }

  /** What the forwarding block keeps: the seen-set, the end-mode list, the
      live-mode queue, the live enqueue counter, and the dashboard's copy
      of that counter. */
  datatype Forward = Forward(
    seen: set<string>,      // `found_seen`
    foundEnd: seq<string>,  // `found_end`
    queue: seq<string>,     // what was put on `rt_in`
    enqueued: nat,          // `rt_enqueued`
    dashEnq: nat)           // `dash.rt_enqueued`

  const Start := Forward({}, [], [], 0, 0)

  /** The forwarding block for one result. A new ok address is marked seen
      before the ceiling is checked; if it passes, mode end appends it to
      the list and mode live queues it and counts it. The dashboard's copy
      of the counter is set to the count and then raised by `extra`: 1 as
      written, where `inc_rt_enq()` follows the assignment, 0 as intended. */
  function StepWith(mode: AutoMode, msMax: Option<int>, f: Forward, r: ScanResult, extra: nat): (g: Forward)
    ensures g.seen == (if r.ok then f.seen + {r.ip} else f.seen)
  {
    if !r.ok || r.ip in f.seen then f
    else
      var marked := f.(seen := f.seen + {r.ip});
      if !Passes(r.ms, msMax) then marked
      else
        match mode
        case Off => marked
        case End => marked.(foundEnd := marked.foundEnd + [r.ip])
        case Live =>
          var n := marked.enqueued + 1;
          marked.(queue := marked.queue + [r.ip], enqueued := n, dashEnq := n + extra)
  }

  /** The block as written (slipscan_cli.py:707-709). */
  function StepAsWritten(mode: AutoMode, msMax: Option<int>, f: Forward, r: ScanResult): Forward {
    StepWith(mode, msMax, f, r, 1)
  }

  /** The block with the dashboard counter equal to the true count. */
  function Step(mode: AutoMode, msMax: Option<int>, f: Forward, r: ScanResult): Forward {
    StepWith(mode, msMax, f, r, 0)
  }

  /** The forwarding state after the results `rs`, in arrival order. */
  function RunWith(mode: AutoMode, msMax: Option<int>, rs: seq<ScanResult>, extra: nat): Forward
    decreases |rs|
  {
    if |rs| == 0 then Start
    else StepWith(mode, msMax, RunWith(mode, msMax, rs[..|rs| - 1], extra), rs[|rs| - 1], extra)
  }

  // -------------------------------------------------- reference definition

  /** The addresses of the ok results, in arrival order, repeats kept. */
  function OkIps(rs: seq<ScanResult>): seq<string>
    decreases |rs|
  {
    if |rs| == 0 then []
    else OkIps(rs[..|rs| - 1]) + (if rs[|rs| - 1].ok then [rs[|rs| - 1].ip] else [])
  }

  /** The latency of the first ok result for ip, if any. */
  function FirstOk(rs: seq<ScanResult>, ip: string): Option<int>
    decreases |rs|
  {
    if |rs| == 0 then None
    else
      var earlier := FirstOk(rs[..|rs| - 1], ip);
      if earlier.Some? then earlier
      else if rs[|rs| - 1].ok && rs[|rs| - 1].ip == ip then Some(rs[|rs| - 1].ms)
      else None
  }

  predicate FirstPasses(rs: seq<ScanResult>, ip: string, msMax: Option<int>) {
    FirstOk(rs, ip).Some? && Passes(FirstOk(rs, ip).value, msMax)
  }

  /** The addresses of ips whose first ok result passes the ceiling. */
  function KeepPassing(ips: seq<string>, rs: seq<ScanResult>, msMax: Option<int>): (r: seq<string>)
    ensures forall x :: x in r ==> x in ips
    decreases |ips|
  {
    if |ips| == 0 then []
    else
      var last := ips[|ips| - 1];
      KeepPassing(ips[..|ips| - 1], rs, msMax) + (if FirstPasses(rs, last, msMax) then [last] else [])
  }

  /** What should be forwarded: each address that scanned ok, once, in the
      order of its first ok result, provided that first result passed the
      ceiling -- a later, faster result for the same address does not
      count. */
  function Forwarded(rs: seq<ScanResult>, msMax: Option<int>): seq<string> {
    KeepPassing(FirstOccurrences(OkIps(rs)), rs, msMax)
  }

  lemma {:induction false} FirstOkSome(rs: seq<ScanResult>, ip: string)
    ensures FirstOk(rs, ip).Some? <==> ip in OkIps(rs)
    decreases |rs|
  {
    if |rs| > 0 {
      FirstOkSome(rs[..|rs| - 1], ip);
    }
  }

  /** Filtering depends only on the verdicts for the addresses filtered. */
  lemma {:induction false} KeepPassingCongruent(ips: seq<string>, rs: seq<ScanResult>, rs2: seq<ScanResult>, msMax: Option<int>)
    requires forall x :: x in ips ==> FirstPasses(rs, x, msMax) == FirstPasses(rs2, x, msMax)
    ensures KeepPassing(ips, rs, msMax) == KeepPassing(ips, rs2, msMax)
    decreases |ips|
  {
    if |ips| > 0 {
      var p := ips[..|ips| - 1];
      assert forall x :: x in p ==> x in ips;
      assert ips[|ips| - 1] in ips;
      KeepPassingCongruent(p, rs, rs2, msMax);
    }
  }

  /** A filtered duplicate-free sequence is duplicate-free. */
  lemma {:induction false} KeepPassingNoDup(ips: seq<string>, rs: seq<ScanResult>, msMax: Option<int>)
    requires NoDup(ips)
    ensures NoDup(KeepPassing(ips, rs, msMax))
    decreases |ips|
  {
    if |ips| > 0 {
      var p := ips[..|ips| - 1];
      assert NoDup(p);
      KeepPassingNoDup(p, rs, msMax);
      assert ips[|ips| - 1] !in p;
    }
  }

  lemma OkIpsSnoc(p: seq<ScanResult>, r: ScanResult)
    ensures OkIps(p + [r]) == OkIps(p) + (if r.ok then [r.ip] else [])
  {
    assert (p + [r])[..|p|] == p;
  }

  lemma FirstOkSnoc(p: seq<ScanResult>, r: ScanResult, x: string)
    ensures FirstOk(p + [r], x)
         == if FirstOk(p, x).Some? then FirstOk(p, x) else if r.ok && r.ip == x then Some(r.ms) else None
  {
    assert (p + [r])[..|p|] == p;
  }

  lemma KeepPassingSnoc(ips: seq<string>, x: string, rs: seq<ScanResult>, msMax: Option<int>)
    ensures KeepPassing(ips + [x], rs, msMax)
         == KeepPassing(ips, rs, msMax) + (if FirstPasses(rs, x, msMax) then [x] else [])
  {
    assert (ips + [x])[..|ips|] == ips;
  }

  /** Addresses that already scanned ok keep their verdict when one more
      result arrives. */
  lemma KeptPrefixAgrees(p: seq<ScanResult>, r: ScanResult, msMax: Option<int>)
    ensures KeepPassing(FirstOccurrences(OkIps(p)), p + [r], msMax)
         == KeepPassing(FirstOccurrences(OkIps(p)), p, msMax)
  {
    var fo := FirstOccurrences(OkIps(p));
    FirstOccurrencesSpec(OkIps(p));
    forall x | x in fo
      ensures FirstPasses(p + [r], x, msMax) == FirstPasses(p, x, msMax)
    {
      FirstOkSome(p, x);
      FirstOkSnoc(p, r, x);
    }
    KeepPassingCongruent(fo, p + [r], p, msMax);
  }

  /** One more result extends what should be forwarded by its address
      exactly when it is the first ok result for that address and passes. */
  lemma ForwardedStep(p: seq<ScanResult>, r: ScanResult, msMax: Option<int>)
    ensures Forwarded(p + [r], msMax)
         == Forwarded(p, msMax) + (if r.ok && r.ip !in OkIps(p) && Passes(r.ms, msMax) then [r.ip] else [])
  {
    var fo := FirstOccurrences(OkIps(p));
    var rs := p + [r];
    OkIpsSnoc(p, r);
    KeptPrefixAgrees(p, r, msMax);
    assert Forwarded(p, msMax) == KeepPassing(fo, p, msMax);
    if r.ok {
      FirstOccurrencesSnoc(OkIps(p), r.ip);
      if r.ip !in OkIps(p) {
        assert FirstOccurrences(OkIps(rs)) == fo + [r.ip];
        KeepPassingSnoc(fo, r.ip, rs, msMax);
        FirstOkSome(p, r.ip);
        FirstOkSnoc(p, r, r.ip);
        assert FirstPasses(rs, r.ip, msMax) == Passes(r.ms, msMax);
      } else {
        assert FirstOccurrences(OkIps(rs)) == fo;
      }
    } else {
      assert OkIps(rs) == OkIps(p) + [] == OkIps(p);
    }
  }

  /** What should be forwarded has no repeats. */
  lemma ForwardedNoDup(rs: seq<ScanResult>, msMax: Option<int>)
    ensures NoDup(Forwarded(rs, msMax))
  {
    FirstOccurrencesSpec(OkIps(rs));
    KeepPassingNoDup(FirstOccurrences(OkIps(rs)), rs, msMax);
  }

  // ----------------------------------------------------- the block, proved

  /** The seen-set is the set of addresses that scanned ok. */
  lemma {:induction false} RunSeen(mode: AutoMode, msMax: Option<int>, rs: seq<ScanResult>, extra: nat)
    ensures forall x :: x in RunWith(mode, msMax, rs, extra).seen <==> x in OkIps(rs)
    decreases |rs|
  {
    if |rs| > 0 {
      RunSeen(mode, msMax, rs[..|rs| - 1], extra);
    }
  }

  /** The list for mode end and the queue for mode live are exactly what
      should be forwarded; the other mode's collection stays empty, and
      mode off forwards nothing. The live counter counts the queue, and the
      dashboard's copy is the count plus `extra` once anything was queued. */
  lemma {:induction false} RunForwards(mode: AutoMode, msMax: Option<int>, rs: seq<ScanResult>, extra: nat)
    ensures var f := RunWith(mode, msMax, rs, extra);
      && f.foundEnd == (if mode == End then Forwarded(rs, msMax) else [])
      && f.queue == (if mode == Live then Forwarded(rs, msMax) else [])
      && f.enqueued == |f.queue|
      && f.dashEnq == (if f.enqueued == 0 then 0 else f.enqueued + extra)
    decreases |rs|
  {
    if |rs| > 0 {
      var p := rs[..|rs| - 1];
      var r := rs[|rs| - 1];
      RunForwards(mode, msMax, p, extra);
      RunSeen(mode, msMax, p, extra);
      ForwardedStep(p, r, msMax);
      assert p + [r] == rs;
    }
  }

  /** In mode end, the list handed to the real test after the scan is what
      should be forwarded, and it has no repeats. */
  lemma EndModeList(msMax: Option<int>, rs: seq<ScanResult>)
    ensures Run(End, msMax, rs).foundEnd == Forwarded(rs, msMax)
    ensures NoDup(Run(End, msMax, rs).foundEnd)
    ensures Run(End, msMax, rs).queue == [] && Run(End, msMax, rs).enqueued == 0
  {
    RunForwards(End, msMax, rs, 0);
    ForwardedNoDup(rs, msMax);
  }

  /** In mode live, every address that should be forwarded is queued once,
      and the dashboard shows the number queued. */
  lemma LiveModeQueue(msMax: Option<int>, rs: seq<ScanResult>)
    ensures Run(Live, msMax, rs).queue == Forwarded(rs, msMax)
    ensures NoDup(Run(Live, msMax, rs).queue)
    ensures Run(Live, msMax, rs).enqueued == |Forwarded(rs, msMax)|
    ensures Run(Live, msMax, rs).dashEnq == Run(Live, msMax, rs).enqueued
  {
    RunForwards(Live, msMax, rs, 0);
    ForwardedNoDup(rs, msMax);
  }

  /** Mode off forwards nothing. */
  lemma OffModeForwardsNothing(msMax: Option<int>, rs: seq<ScanResult>)
    ensures Run(Off, msMax, rs).foundEnd == [] && Run(Off, msMax, rs).queue == []
    ensures Run(Off, msMax, rs).enqueued == 0
  {
    RunForwards(Off, msMax, rs, 0);
  }

  /** The forwarding state after `rs`, with the dashboard counter kept equal
      to the count. */
  function Run(mode: AutoMode, msMax: Option<int>, rs: seq<ScanResult>): Forward {
    RunWith(mode, msMax, rs, 0)
  }

  /** As written, the dashboard's counter runs one ahead of the number of
      addresses queued once the first one is queued, so "DONE=x/y" shows y
      one too high during the scan. */
  lemma LiveCounterAsWritten(msMax: Option<int>, rs: seq<ScanResult>)
    ensures var f := RunWith(Live, msMax, rs, 1);
      f.enqueued > 0 ==> f.dashEnq == f.enqueued + 1
    ensures var f := RunWith(Live, None, [ScanResult("1.2.3.4", true, 10)], 1);
      f.enqueued == 1 && f.dashEnq == 2
  {
    RunForwards(Live, msMax, rs, 1);
    var one := [ScanResult("1.2.3.4", true, 10)];
    assert one[..0] == [];
  }

  // ------------------------------------------------------ realtest command

  /** One line of the `realtest` input: stripped, its port dropped, kept if
      what is left is an IPv4 address. */
  function ListEntry(line: string): (r: Option<string>)
    ensures r.Some? ==> ParseAddress(r.value).Some? && ':' !in r.value && Trimmed(r.value)
  {
    var ip := StripPort(Strip(line));
    if IsIp(ip) then Some(ip) else None
  }

  /** The address of every line that holds one, in order. */
  function ReadList(lines: seq<string>): seq<string>
    decreases |lines|
  {
    if |lines| == 0 then []
    else
      var init := ReadList(lines[..|lines| - 1]);
      match ListEntry(lines[|lines| - 1])
      case None => init
      case Some(ip) => init + [ip]
  }

  /** Every address read is an IPv4 address with no port and no blanks
      around it. */
  lemma {:induction false} ReadListAddresses(lines: seq<string>)
    ensures forall ip :: ip in ReadList(lines) ==> ParseAddress(ip).Some? && ':' !in ip && Trimmed(ip)
    decreases |lines|
  {
    if |lines| > 0 {
      ReadListAddresses(lines[..|lines| - 1]);
    }
  }

  /** Every address read is canonical: it is the text of the address it
      denotes. */
  lemma ReadListCanonical(lines: seq<string>)
    ensures forall ip :: ip in ReadList(lines) ==> ParseAddress(ip).Some? && Format(ParseAddress(ip).value) == ip
  {
    ReadListAddresses(lines);
    forall ip | ip in ReadList(lines)
      ensures Format(ParseAddress(ip).value) == ip
    {
      FormatParse(ip);
    }
  }

  /** An address written out, alone or with a port, is read as that address. */
  lemma ListEntryOfAddress(a: Address, port: string)
    requires NoSpace(port) && |port| > 0
    ensures ListEntry(Format(a)) == Some(Format(a))
    ensures ListEntry(Format(a) + ":" + port) == Some(Format(a))
  {
    FormatChars(a);
    ParseFormat(a);
    var f := Format(a);
    assert Strip(f) == f;
    var t := f + ":" + port;
    assert NoSpace(t);
    assert Strip(t) == t;
    StripPortOfHostPort(f, port);
    assert ':' !in f by {
      assert forall c :: c in f ==> IsDigit(c) || c == '.';
    }
  }

  /** The dedup loop of `cmd_realtest` (slipscan_cli.py:807-813): walk the
      addresses once with a seen-set, keeping each at its first
      occurrence. */
  method Dedup(ips: seq<string>) returns (uniq: seq<string>)
    ensures uniq == FirstOccurrences(ips)
    ensures NoDup(uniq) && (forall x :: x in uniq <==> x in ips)
  {
    var seen: set<string> := {};
    uniq := [];
    var i := 0;
    while i < |ips|
      invariant 0 <= i <= |ips|
      invariant uniq == FirstOccurrences(ips[..i])
      invariant forall x :: x in seen <==> x in ips[..i]
    {
      var ip := ips[i];
      assert ips[..i + 1][..i] == ips[..i];
      if ip !in seen {
        seen := seen + {ip};
        uniq := uniq + [ip];
      }
      i := i + 1;
    }
    assert ips[..|ips|] == ips;
    FirstOccurrencesSpec(ips);
  }

  lemma SameMembersEmpty(a: seq<string>, b: seq<string>)
    requires forall x :: x in a <==> x in b
    ensures |a| == 0 <==> |b| == 0
  {
    if |a| > 0 {
      assert a[0] in b;
    }
    if |b| > 0 {
      assert b[0] in a;
    }
  }

  /** The address list `cmd_realtest` tests, given the addresses it read
      (`ReadList` of its input): those addresses without repeats; None when
      there is none (the command exits with status 2). */
  method RealtestTargets(ips: seq<string>) returns (r: Option<seq<string>>)
    ensures r.None? <==> ips == []
    ensures r.Some? ==> r.value == FirstOccurrences(ips)
    ensures r.Some? ==> NoDup(r.value) && (forall x :: x in r.value <==> x in ips)
  {
    var uniq := Dedup(ips);
    SameMembersEmpty(uniq, ips);
    if |uniq| == 0 {
      r := None;
    } else {
      r := Some(uniq);
    }
  }

  /** One round of `cmd_realtest` on the dashboard: the address appears as
      scanned ok, then its real-test result is recorded, ok exactly when its
      status reports a duration. */
  function RealtestRound(d: Dashboard.Dash, ip: string, t: Socks.Realtest): Option<Dashboard.Dash>
  {
    match Dashboard.UpdateScan(d, ip, "-", "(manual list)", true)
    case None => None
    case Some(e) => Dashboard.UpdateRealtest(e, ip, t.msText, t.status, EndsWith(t.status, " ms"))
  }

  /** A round on a valid dashboard whose table keeps at least one row leaves
      it valid, with the address's row filled in and the test counted as ok
      exactly when the ms column holds a number. */
  lemma RealtestRoundSpec(d: Dashboard.Dash, ip: string, found: bool, polls: seq<Socks.Poll>,
                          greet: Socks.Exchange, connect: Socks.Exchange, tls: Socks.Exchange, elapsedMs: nat)
    requires Dashboard.Valid(d) && d.keep >= 1
    ensures var t := Socks.RealtestOne(found, polls, greet, connect, tls, elapsedMs);
      var r := RealtestRound(d, ip, t);
      && r.Some?
      && Dashboard.Valid(r.value)
      && r.value.scanOk == d.scanOk + 1 && r.value.rtDone == d.rtDone + 1
      && r.value.rtOk == d.rtOk + (if t.msText != "-" then 1 else 0)
      && r.value.rows[ip] == Dashboard.Row("-", "(manual list)", t.msText, t.status)
  {
    var t := Socks.RealtestOne(found, polls, greet, connect, tls, elapsedMs);
    Socks.RealtestColumnsAgree(found, polls, greet, connect, tls, elapsedMs);
    Dashboard.UpdateScanSpec(d, ip, "-", "(manual list)", true);
    var e := Dashboard.UpdateScan(d, ip, "-", "(manual list)", true).value;
    Dashboard.UpdateRealtestSpec(e, ip, t.msText, t.status, EndsWith(t.status, " ms"));
  }
}

=== FILE: dashboard.dfy ===
/** The bookkeeping behind the scanner's live dashboard: scan and real-test
    counters, and a bounded table of the addresses that passed the scan,
    oldest evicted first. Rendering is not modelled. */
module Dashboard {
  import opened Basics

  /** One table row: scan latency and status, real-test latency and status. */
  datatype Row = Row(scanMs: string, scanSt: string, rtMs: string, rtSt: string)

  /** The row a newly seen address starts with. */
  const Blank := Row("-", "-", "-", "-")

  datatype Dash = Dash(
    totalScan: int,
    scanDone: nat, scanOk: nat, scanFail: nat,
    rtDone: nat, rtOk: nat, rtFail: nat,
    rtEnqueued: nat,
    rows: map<string, Row>,   // `rows_ok`
    order: seq<string>,       // `order_ok`, oldest first
    keep: int)                // `table_keep`

  /** `RichDashboard(total_scan, table_keep)`. */
  function NewDash(totalScan: int, keep: int): (d: Dash)
    ensures Valid(d) && d.totalScan >= 1 && d.totalScan >= totalScan
    ensures totalScan >= 1 ==> d.totalScan == totalScan
    ensures totalScan < 1 ==> d.totalScan == 1
    ensures d.scanDone == d.scanOk == d.scanFail == 0
    ensures d.rtDone == d.rtOk == d.rtFail == d.rtEnqueued == 0
    ensures d.rows == map[] && d.order == [] && d.keep == keep
  {
    Dash(Max(1, totalScan), 0, 0, 0, 0, 0, 0, 0, map[], [], keep)
  }

  /** What every dashboard state satisfies: the table's keys are exactly the
      addresses in the eviction order, each once, no more of them than the
      table keeps, and every finished probe counted as ok or failed. */
  ghost predicate Valid(d: Dash) {
    && d.totalScan >= 1
    && NoDup(d.order)
    && (forall ip :: ip in d.rows <==> ip in d.order)
    && |d.order| <= Max(0, d.keep)
    && d.scanDone == d.scanOk + d.scanFail
    && d.rtDone == d.rtOk + d.rtFail
  }

  // ----------------------------------------------------------------- table

  /** How many of n addresses a table keeping `keep` rows evicts. */
  function Drop(n: nat, keep: nat): (r: nat)
    ensures r <= n && n - r <= keep
    ensures n <= keep ==> r == 0
  {
    if n > keep then n - keep else 0
  }

  /** The eviction loop of `_touch_ok`: while the table is over its bound,
      drop the oldest address and its row. */
  function Evict(order: seq<string>, rows: map<string, Row>, keep: nat): (r: (seq<string>, map<string, Row>))
    ensures |r.0| <= keep && |r.0| <= |order|
    decreases |order|
  {
    if |order| <= keep then (order, rows)
    else Evict(order[1..], rows - {order[0]}, keep)
  }

  /** The loop keeps the newest `keep` addresses. */
  lemma {:induction false} EvictOrder(order: seq<string>, rows: map<string, Row>, keep: nat)
    ensures Evict(order, rows, keep).0 == order[Drop(|order|, keep)..]
    decreases |order|
  {
    if |order| > keep {
      EvictOrder(order[1..], rows - {order[0]}, keep);
      assert order[1..][Drop(|order| - 1, keep)..] == order[Drop(|order|, keep)..];
    }
  }

  /** The loop drops the rows of exactly the addresses it evicts, and leaves
      the others' rows as they were. */
  lemma {:induction false} EvictRows(order: seq<string>, rows: map<string, Row>, keep: nat)
    ensures forall ip :: ip in Evict(order, rows, keep).1 <==> ip in rows && ip !in order[..Drop(|order|, keep)]
    ensures forall ip :: ip in Evict(order, rows, keep).1 ==> Evict(order, rows, keep).1[ip] == rows[ip]
    decreases |order|
  {
    if |order| > keep {
      EvictRows(order[1..], rows - {order[0]}, keep);
      var drop := Drop(|order|, keep);
      assert order[..drop] == [order[0]] + order[1..][..Drop(|order| - 1, keep)];
    }
  }

  /** A suffix of a duplicate-free sequence holds exactly the elements not
      in the matching prefix. */
  lemma SuffixMembers(o: seq<string>, k: nat)
    requires NoDup(o) && k <= |o|
    ensures NoDup(o[k..])
    ensures forall x :: x in o[k..] <==> x in o && x !in o[..k]
  {
    assert o == o[..k] + o[k..];
  }

  /** `_touch_ok(ip)`: an address already in the table is left alone; a new
      one gets a blank row at the newest end, and the oldest rows go while
      the table is over its bound. None when the bound is negative, where
      the loop pops from an empty deque. */
  function TouchOk(d: Dash, ip: string): (r: Option<Dash>)
    ensures r.Some? <==> ip in d.rows || d.keep >= 0
    ensures ip in d.rows ==> r == Some(d)
  {
    if ip in d.rows then Some(d)
    else if d.keep < 0 then None
    else
      var (o, rs) := Evict(d.order + [ip], d.rows[ip := Blank], d.keep);
      Some(d.(order := o, rows := rs))
  }

  /** Touching a new address: it goes to the newest end and the oldest go;
      the table stays valid; the surviving rows are unchanged. */
  lemma TouchNew(d: Dash, ip: string)
    requires Valid(d) && ip !in d.rows && d.keep >= 0
    ensures var e := TouchOk(d, ip).value;
      && e.order == (d.order + [ip])[Drop(|d.order| + 1, d.keep)..]
      && Valid(e)
      && (forall x :: x in e.rows ==> x in d.rows[ip := Blank] && e.rows[x] == d.rows[ip := Blank][x])
  {
    var o := d.order + [ip];
    var rs := d.rows[ip := Blank];
    var drop := Drop(|o|, d.keep);
    EvictOrder(o, rs, d.keep);
    EvictRows(o, rs, d.keep);
    assert NoDup(o) by {
      assert ip !in d.order;
    }
    assert forall x :: x in rs <==> x in o;
    SuffixMembers(o, drop);
  }

  /** Touching keeps the table valid; a new address is then present with a
      blank row exactly when the bound is positive, every other surviving row
      is unchanged, and what is evicted is the oldest. */
  lemma TouchOkSpec(d: Dash, ip: string)
    requires Valid(d) && TouchOk(d, ip).Some?
    ensures var e := TouchOk(d, ip).value;
      && Valid(e)
      && e.order == (if ip in d.rows then d.order else (d.order + [ip])[Drop(|d.order| + 1, d.keep)..])
      && (ip in e.rows <==> ip in d.rows || d.keep >= 1)
      && (ip in e.rows && ip !in d.rows ==> e.rows[ip] == Blank)
      && (forall x :: x in e.rows && x != ip ==> x in d.rows && e.rows[x] == d.rows[x])
      && e.(rows := d.rows, order := d.order) == d
  {
    if ip !in d.rows {
      TouchNew(d, ip);
      var e := TouchOk(d, ip).value;
      var o := d.order + [ip];
      if d.keep >= 1 {
        assert e.order[|e.order| - 1] == o[|o| - 1] == ip;
      } else {
        assert e.order == [];
      }
    }
  }

  // -------------------------------------------------------------- updates

  /** `update_scan(ip, scan_ms, scan_status, ok)`: count the probe; for an
      ok one, make sure the address has a row and record the scan columns.
      None when the row is gone by the time it is written, as with a bound
      below 1 (`rows_ok[ip]` raises). */
  function UpdateScan(d: Dash, ip: string, ms: string, status: string, ok: bool): (r: Option<Dash>)
    ensures !ok ==> r == Some(d.(scanDone := d.scanDone + 1, scanFail := d.scanFail + 1))
    ensures ok && r.Some? ==> ip in r.value.rows && r.value.rows[ip].scanMs == ms && r.value.rows[ip].scanSt == status
  {
    if !ok then Some(d.(scanDone := d.scanDone + 1, scanFail := d.scanFail + 1))
    else
      var counted := d.(scanDone := d.scanDone + 1, scanOk := d.scanOk + 1);
      match TouchOk(counted, ip)
      case None => None
      case Some(e) =>
        if ip !in e.rows then None
        else Some(e.(rows := e.rows[ip := e.rows[ip].(scanMs := ms, scanSt := status)]))
  }

  /** `update_realtest(ip, rt_ms, rt_status, ok)`: make sure the address
      has a row, record the real-test columns, then count the test. */
  function UpdateRealtest(d: Dash, ip: string, ms: string, status: string, ok: bool): (r: Option<Dash>)
    ensures r.Some? ==> ip in r.value.rows && r.value.rows[ip].rtMs == ms && r.value.rows[ip].rtSt == status
    ensures r.Some? ==> r.value.rtDone == d.rtDone + 1
  {
    match TouchOk(d, ip)
    case None => None
    case Some(e) =>
      if ip !in e.rows then None
      else
        var written := e.(rows := e.rows[ip := e.rows[ip].(rtMs := ms, rtSt := status)]);
        if ok then Some(written.(rtDone := d.rtDone + 1, rtOk := d.rtOk + 1))
        else Some(written.(rtDone := d.rtDone + 1, rtFail := d.rtFail + 1))
  }

  /** `inc_rt_enq()`. */
  function IncRtEnqueued(d: Dash): (e: Dash)
    ensures e.rtEnqueued == d.rtEnqueued + 1
    ensures e.(rtEnqueued := d.rtEnqueued) == d
  {
    d.(rtEnqueued := d.rtEnqueued + 1)
  }

  /** A scan update keeps the dashboard valid, succeeds whenever the table
      holds at least one row, counts the probe as ok or failed according to
      `ok`, and leaves the other rows and the real-test columns of this one
      as they were. */
  lemma UpdateScanSpec(d: Dash, ip: string, ms: string, status: string, ok: bool)
    requires Valid(d)
    ensures d.keep >= 1 ==> UpdateScan(d, ip, ms, status, ok).Some?
    ensures UpdateScan(d, ip, ms, status, ok).Some? ==>
      var e := UpdateScan(d, ip, ms, status, ok).value;
      && Valid(e)
      && e.scanDone == d.scanDone + 1
      && e.scanOk == d.scanOk + (if ok then 1 else 0)
      && e.scanFail == d.scanFail + (if ok then 0 else 1)
      && e.rtDone == d.rtDone && e.rtEnqueued == d.rtEnqueued
      && (ok ==> e.rows[ip].rtMs == (if ip in d.rows then d.rows[ip].rtMs else "-"))
      && (ok ==> e.rows[ip].rtSt == (if ip in d.rows then d.rows[ip].rtSt else "-"))
      && (forall x :: x in e.rows && x != ip ==> x in d.rows && e.rows[x] == d.rows[x])
      && (ok ==> e.order == (if ip in d.rows then d.order else (d.order + [ip])[Drop(|d.order| + 1, d.keep)..]))
      && (!ok ==> e.order == d.order && e.rows == d.rows)
      && e.(rows := d.rows, order := d.order, scanDone := d.scanDone, scanOk := d.scanOk, scanFail := d.scanFail) == d
  {
    if ok {
      var counted := d.(scanDone := d.scanDone + 1, scanOk := d.scanOk + 1);
      assert Valid(counted);
      if TouchOk(counted, ip).Some? {
        TouchOkSpec(counted, ip);
      }
    }
  }

  /** A real-test update keeps the dashboard valid, succeeds whenever the
      table holds at least one row, counts the test as ok or failed according
      to `ok`, and leaves the other rows and the scan columns of this one as
      they were. */
  lemma UpdateRealtestSpec(d: Dash, ip: string, ms: string, status: string, ok: bool)
    requires Valid(d)
    ensures d.keep >= 1 ==> UpdateRealtest(d, ip, ms, status, ok).Some?
    ensures UpdateRealtest(d, ip, ms, status, ok).Some? ==>
      var e := UpdateRealtest(d, ip, ms, status, ok).value;
      && Valid(e)
      && e.rtOk == d.rtOk + (if ok then 1 else 0)
      && e.rtFail == d.rtFail + (if ok then 0 else 1)
      && e.scanDone == d.scanDone && e.scanOk == d.scanOk && e.rtEnqueued == d.rtEnqueued
      && e.rows[ip].scanMs == (if ip in d.rows then d.rows[ip].scanMs else "-")
      && e.rows[ip].scanSt == (if ip in d.rows then d.rows[ip].scanSt else "-")
      && (forall x :: x in e.rows && x != ip ==> x in d.rows && e.rows[x] == d.rows[x])
      && e.order == (if ip in d.rows then d.order else (d.order + [ip])[Drop(|d.order| + 1, d.keep)..])
      && e.(rows := d.rows, order := d.order, rtDone := d.rtDone, rtOk := d.rtOk, rtFail := d.rtFail) == d
  {
    if TouchOk(d, ip).Some? {
      TouchOkSpec(d, ip);
    }
  }

  // -------------------------------------------------------- many touches

  /** Touching each address of `ips` in turn, from the oldest. */
  function TouchAll(d: Dash, ips: seq<string>): Option<Dash>
    decreases |ips|
  {
    if |ips| == 0 then Some(d)
    else
      match TouchAll(d, ips[..|ips| - 1])
      case None => None
      case Some(e) => TouchOk(e, ips[|ips| - 1])
  }

  /** As long as no more distinct addresses arrive than the table keeps,
      nothing is evicted: the table lists every address once, in the order
      it first arrived, and the counters are untouched. */
  lemma {:induction false} TouchAllKeepsFirstOccurrences(d: Dash, ips: seq<string>)
    requires Valid(d) && d.order == []
    requires |FirstOccurrences(ips)| <= d.keep
    ensures TouchAll(d, ips).Some?
    ensures TouchAll(d, ips).value.order == FirstOccurrences(ips)
    ensures Valid(TouchAll(d, ips).value)
    ensures TouchAll(d, ips).value.(rows := d.rows, order := d.order) == d
    decreases |ips|
  {
    if |ips| > 0 {
      var p := ips[..|ips| - 1];
      var x := ips[|ips| - 1];
      assert |FirstOccurrences(p)| <= |FirstOccurrences(ips)|;
      TouchAllKeepsFirstOccurrences(d, p);
      var e := TouchAll(d, p).value;
      assert TouchAll(d, ips) == TouchOk(e, x);
      TouchNext(e, p, x);
    }
  }

  /** The step of `TouchAllKeepsFirstOccurrences`: one more address, with
      room for it if it is new. */
  lemma TouchNext(e: Dash, p: seq<string>, x: string)
    requires Valid(e) && e.order == FirstOccurrences(p)
    requires |FirstOccurrences(p + [x])| <= e.keep
    ensures TouchOk(e, x).Some?
    ensures TouchOk(e, x).value.order == FirstOccurrences(p + [x])
    ensures Valid(TouchOk(e, x).value)
    ensures TouchOk(e, x).value.(rows := e.rows, order := e.order) == e
  {
    FirstOccurrencesSpec(p);
    var ips := p + [x];
    assert ips[..|ips| - 1] == p;
    TouchOkSpec(e, x);
    if x !in e.rows {
      assert FirstOccurrences(ips) == e.order + [x];
      assert Drop(|e.order| + 1, e.keep) == 0;
      assert (e.order + [x])[0..] == e.order + [x];
    }
  }
}

=== FILE: dns.dfy ===
/** The fast tunnel probe: one DNS query for a fresh random name under the
    tunnel domain (section 4.1 of RFC 1035: a 12-byte header and one
    question of type A, class IN), the RCODE of whatever comes back, and the
    table that turns that RCODE into a verdict. Sockets and clocks are left
    out: the transaction id, the random 6-digit label, the reply bytes and the
    elapsed milliseconds are parameters. */
module Dns {
  import opened Basics
  import opened Text

  // ------------------------------------------------------------- the query

  /** `s.encode("ascii", "ignore")`: every character below 128, as its code;
      every other character is dropped. */
  function AsciiBytes(s: string): (r: seq<byte>)
    ensures |r| <= |s|
    decreases |s|
  {
    if |s| == 0 then []
    else (if s[0] as int < 128 then [s[0] as int] else []) + AsciiBytes(s[1..])
  }

  /** ASCII text encodes to one byte per character, each the character's
      code. */
  lemma {:induction false} AsciiBytesOfAscii(s: string)
    requires IsAscii(s)
    ensures |AsciiBytes(s)| == |s|
    ensures forall i :: 0 <= i < |s| ==> AsciiBytes(s)[i] == s[i] as int
    decreases |s|
  {
    if |s| > 0 {
      assert IsAscii(s[1..]) by {
        assert forall i :: 0 <= i < |s| - 1 ==> s[1..][i] == s[i + 1];
      }
      AsciiBytesOfAscii(s[1..]);
    }
  }

  /** `qname.strip(".").split(".")`: the labels of a name. */
  function Labels(qname: string): seq<string>
  {
    SplitOn(TrimChar(qname, '.'), '.')
  }

  /** Transaction id (big-endian), flags 0x0100 (recursion desired),
      QDCOUNT 1, ANCOUNT, NSCOUNT and ARCOUNT 0. */
  function Header(tid: u16): (r: seq<byte>)
    ensures |r| == 12
  {
    [tid / 256, tid % 256] + HeaderRest
  }

  /** The ten header bytes after the transaction id. */
  const HeaderRest: seq<byte> := [1, 0, 0, 1, 0, 0, 0, 0, 0, 0]

  /** The root label that ends the name, QTYPE 1 (A) and QCLASS 1 (IN). */
  const Trailer: seq<byte> := [0, 0, 1, 0, 1]

  /** The length the query writes before a label, as written: the number of
      characters. */
  function CharCount(p: string): nat {
    |p|
  }

  /** The length of what actually follows: the number of bytes the label
      encodes to. */
  function ByteCount(p: string): nat {
    |AsciiBytes(p)|
  }

  /** One label: its length under `count`, then its ASCII bytes. A length
      above 255 makes `bytes([n])` raise, and there is no query. */
  function LabelWith(p: string, count: string -> nat): Option<seq<byte>>
  {
    var n := count(p);
    if n > 255 then None else Some([n] + AsciiBytes(p))
  }

  /** The labels one after the other, or None once one of them fails. */
  function NameWith(labels: seq<string>, count: string -> nat): Option<seq<byte>>
    decreases |labels|
  {
    if |labels| == 0 then Some([])
    else
      match LabelWith(labels[0], count)
      case None => None
      case Some(l) =>
        match NameWith(labels[1..], count)
        case None => None
        case Some(rest) => Some(l + rest)
  }

  function QueryWith(tid: u16, qname: string, count: string -> nat): Option<seq<byte>>
  {
    match NameWith(Labels(qname), count)
    case None => None
    case Some(name) => Some(Header(tid) + name + Trailer)
  }

  /** `_encode_dns_query(qname)` as written, with the random id given: each
      label is prefixed with its length in characters. */
  function EncodeQueryAsWritten(tid: u16, qname: string): Option<seq<byte>>
  {
    QueryWith(tid, qname, CharCount)
  }

  /** The query with each label prefixed by the number of bytes that follow,
      as section 3.1 of RFC 1035 requires. */
  function EncodeQuery(tid: u16, qname: string): Option<seq<byte>>
  {
    QueryWith(tid, qname, ByteCount)
  }

  /** `f"{n}.{domain.strip('.')}"`: the name the probe asks for, for the
      random n in 100000..999999. */
  function QueryName(n: nat, domain: string): string
    requires 100000 <= n <= 999999
  {
    Decimal(n) + "." + TrimChar(domain, '.')
  }

  // ------------------------------------------------------------- decoding

  /** What a DNS server reads from a query: its id and its labels. */
  datatype Question = Question(tid: u16, labels: seq<seq<byte>>)

  /** The labels of a name at the front of m, and what follows its root
      label; None when m ends inside the name. */
  function ReadName(m: seq<byte>): Option<(seq<seq<byte>>, seq<byte>)>
    decreases |m|
  {
    if |m| == 0 then None
    else
      var n := m[0] as int;
      if n == 0 then Some(([], m[1..]))
      else if |m| < 1 + n then None
      else
        match ReadName(m[1 + n..])
        case None => None
        case Some((ls, rest)) => Some(([m[1..1 + n]] + ls, rest))
  }

  /** A standard query of type A, class IN, with one question, read back. */
  function DecodeQuery(m: seq<byte>): Option<Question>
  {
    if |m| < 12 || m[2..12] != HeaderRest then None
    else
      match ReadName(m[12..])
      case None => None
      case Some((ls, rest)) =>
        if rest == Trailer[1..] then Some(Question(m[0] as int * 256 + m[1] as int, ls)) else None
  }

  /** The bytes of every label. */
  function LabelBytes(labels: seq<string>): (r: seq<seq<byte>>)
    ensures |r| == |labels|
  {
    seq(|labels|, (i: int) requires 0 <= i < |labels| => AsciiBytes(labels[i]))
  }

  /** Every label encodes to between 1 and 255 bytes. */
  predicate Encodable(labels: seq<string>) {
    forall i :: 0 <= i < |labels| ==> 0 < |AsciiBytes(labels[i])| <= 255
  }

  /** A label in front of a name is read first. */
  lemma ReadNameCons(b: seq<byte>, after: seq<byte>, ls: seq<seq<byte>>, t: seq<byte>)
    requires 0 < |b| <= 255 && ReadName(after) == Some((ls, t))
    ensures ReadName([|b|] + b + after) == Some(([b] + ls, t))
  {
    var m := [|b|] + b + after;
    assert m[0] as int == |b|;
    assert m[1..1 + |b|] == b;
    assert m[1 + |b|..] == after;
  }

  /** The bytes of the labels are the first label's bytes, then the rest's. */
  lemma LabelBytesCons(labels: seq<string>)
    requires |labels| > 0
    ensures LabelBytes(labels) == [AsciiBytes(labels[0])] + LabelBytes(labels[1..])
  {
  }

  /** An encodable first label is written in front of the rest of the name. */
  lemma NameWithCons(labels: seq<string>)
    requires |labels| > 0 && |AsciiBytes(labels[0])| <= 255
    requires NameWith(labels[1..], ByteCount).Some?
    ensures NameWith(labels, ByteCount)
         == Some([|AsciiBytes(labels[0])|] + AsciiBytes(labels[0]) + NameWith(labels[1..], ByteCount).value)
  {
  }

  /** The labels after the first of an encodable name are encodable. */
  lemma EncodableTail(labels: seq<string>)
    requires |labels| > 0 && Encodable(labels)
    ensures Encodable(labels[1..]) && 0 < |AsciiBytes(labels[0])| <= 255
  {
    assert forall i :: 0 <= i < |labels| - 1 ==> labels[1..][i] == labels[i + 1];
  }

  /** A name of encodable labels reads back as those labels' bytes, and
      whatever follows its root label is left alone. */
  lemma {:induction false} ReadNameWith(labels: seq<string>, tail: seq<byte>)
    requires Encodable(labels)
    ensures NameWith(labels, ByteCount).Some?
    ensures ReadName(NameWith(labels, ByteCount).value + [0] + tail) == Some((LabelBytes(labels), tail))
    decreases |labels|
  {
    if |labels| == 0 {
      assert [] + [0] + tail == [0] + tail;
      assert ([0] + tail)[1..] == tail;
    } else {
      EncodableTail(labels);
      ReadNameWith(labels[1..], tail);
      ReadNameStep(labels, tail);
    }
  }

  /** The inductive step of `ReadNameWith`. */
  lemma ReadNameStep(labels: seq<string>, tail: seq<byte>)
    requires |labels| > 0 && 0 < |AsciiBytes(labels[0])| <= 255
    requires NameWith(labels[1..], ByteCount).Some?
    requires ReadName(NameWith(labels[1..], ByteCount).value + [0] + tail) == Some((LabelBytes(labels[1..]), tail))
    ensures NameWith(labels, ByteCount).Some?
    ensures ReadName(NameWith(labels, ByteCount).value + [0] + tail) == Some((LabelBytes(labels), tail))
  {
    var b := AsciiBytes(labels[0]);
    var rest := NameWith(labels[1..], ByteCount).value;
    NameWithCons(labels);
    assert [|b|] + b + rest + [0] + tail == [|b|] + b + (rest + [0] + tail);
    ReadNameCons(b, rest + [0] + tail, LabelBytes(labels[1..]), tail);
    LabelBytesCons(labels);
  }

  /** Decoding inverts encoding: a name whose labels each encode to 1..255
      bytes gives a query that reads back as the same id and the same label
      bytes. */
  lemma DecodeEncode(tid: u16, qname: string)
    requires Encodable(Labels(qname))
    ensures EncodeQuery(tid, qname).Some?
    ensures DecodeQuery(EncodeQuery(tid, qname).value) == Some(Question(tid, LabelBytes(Labels(qname))))
  {
    var ls := Labels(qname);
    ReadNameWith(ls, Trailer[1..]);
    var name := NameWith(ls, ByteCount).value;
    QueryFrame(tid, name);
  }

  /** A query is its id, the fixed header fields, the name and the trailer,
      and reads back as such. */
  lemma QueryFrame(tid: u16, name: seq<byte>)
    ensures var m := Header(tid) + name + Trailer;
      && |m| >= 12 && m[2..12] == HeaderRest
      && m[12..] == name + [0] + Trailer[1..]
      && m[0] as int * 256 + m[1] as int == tid
  {
    var m := Header(tid) + name + Trailer;
    assert Trailer == [0] + Trailer[1..];
    assert m[12..] == name + [0] + Trailer[1..];
  }

  /** With the length written in characters, any non-ASCII character breaks
      the framing: the query for "éx" claims a 2-byte label but carries one
      byte, and no longer reads back as a query. */
  lemma NonAsciiBreaksQuery(tid: u16)
    ensures EncodeQueryAsWritten(tid, "éx").Some?
    ensures DecodeQuery(EncodeQueryAsWritten(tid, "éx").value) == None
    ensures EncodeQuery(tid, "éx").Some?
    ensures DecodeQuery(EncodeQuery(tid, "éx").value) == Some(Question(tid, [['x' as int]]))
  {
    EacuteLabels();
    EacuteAsWritten(tid);
    EacuteBroken(tid);
    assert LabelBytes(["éx"]) == [['x' as int]];
    DecodeEncode(tid, "éx");
  }

  /** "éx" is one label, whose ASCII bytes are just "x". */
  lemma EacuteLabels()
    ensures Labels("éx") == ["éx"]
    ensures AsciiBytes("éx") == ['x' as int]
  {
    var q := "éx";
    assert TrimChar(q, '.') == q;
    SplitOnNoSep(q, '.');
    assert q[1..] == "x" && "x"[1..] == [];
    assert AsciiBytes("x") == ['x' as int] + AsciiBytes([]);
  }

  lemma EacuteAsWritten(tid: u16)
    requires Labels("éx") == ["éx"] && AsciiBytes("éx") == ['x' as int]
    ensures EncodeQueryAsWritten(tid, "éx") == Some(Header(tid) + [2, 'x' as int] + Trailer)
  {
    var q := "éx";
    var qs: seq<string> := [q];
    assert CharCount(q) == 2;
    assert [2] + AsciiBytes(q) == [2, 'x' as int];
    assert LabelWith(q, CharCount) == Some([2, 'x' as int]);
    assert qs[1..] == [];
    assert NameWith(qs[1..], CharCount) == Some([]);
    assert qs[0] == q;
    assert [2, 'x' as int] + [] == [2, 'x' as int];
    assert NameWith(qs, CharCount) == Some([2, 'x' as int]);
  }

  /** The label claims two bytes, so the reader takes "x" and the root
      label as the label and runs past the end of the name. */
  lemma EacuteBroken(tid: u16)
    ensures DecodeQuery(Header(tid) + [2, 'x' as int] + Trailer) == None
  {
    var m := Header(tid) + [2, 'x' as int] + Trailer;
    assert m[12..] == [2, 'x' as int, 0, 0, 1, 0, 1];
    assert ReadName([0, 1, 0, 1]) == Some(([], [1, 0, 1]));
    assert m[2..12] == HeaderRest;
    assert [2, 'x' as int, 0, 0, 1, 0, 1][3..] == [0, 1, 0, 1];
  }

  // ------------------------------------------------------ ASCII agreement

  lemma LabelsChars(qname: string)
    ensures forall p, c :: p in Labels(qname) && c in p ==> c in qname
  {
    var t := TrimChar(qname, '.');
    forall p, c | p in SplitOn(t, '.') && c in p
      ensures c in qname
    {
      SplitOnChars(t, '.', p, c);
    }
  }

  /** The characters of a piece are characters of the whole. */
  lemma {:induction false} SplitOnChars(s: string, sep: char, p: string, c: char)
    requires p in SplitOn(s, sep) && c in p
    ensures c in s
    decreases |s|
  {
    if |s| > 0 {
      var rest := SplitOn(s[1..], sep);
      if s[0] == sep {
        if p in rest {
          SplitOnChars(s[1..], sep, p, c);
        }
      } else if p == [s[0]] + rest[0] {
        if c != s[0] {
          assert c in rest[0];
          SplitOnChars(s[1..], sep, rest[0], c);
        }
      } else {
        assert p in rest;
        SplitOnChars(s[1..], sep, p, c);
      }
    }
  }

  lemma {:induction false} NameWithAscii(labels: seq<string>)
    requires forall i :: 0 <= i < |labels| ==> IsAscii(labels[i])
    ensures NameWith(labels, CharCount) == NameWith(labels, ByteCount)
    decreases |labels|
  {
    if |labels| > 0 {
      AsciiBytesOfAscii(labels[0]);
      assert LabelWith(labels[0], CharCount) == LabelWith(labels[0], ByteCount);
      NameWithAscii(labels[1..]);
    }
  }

  /** For an ASCII name the two encodings agree: counting characters is only
      wrong when a character is dropped. */
  lemma AsWrittenAgreesOnAscii(tid: u16, qname: string)
    requires IsAscii(qname)
    ensures EncodeQueryAsWritten(tid, qname) == EncodeQuery(tid, qname)
  {
    var ls := Labels(qname);
    LabelsChars(qname);
    forall i | 0 <= i < |ls|
      ensures IsAscii(ls[i])
    {
      forall j | 0 <= j < |ls[i]|
        ensures ls[i][j] as int < 128
      {
        assert ls[i][j] in ls[i] && ls[i] in ls;
        var k :| 0 <= k < |qname| && qname[k] == ls[i][j];
      }
    }
    NameWithAscii(ls);
  }

  // ---------------------------------------------------------------- length

  /** An encodable ASCII name is one byte longer than its labels joined with
      dots: a length byte per label, the dots not written. */
  lemma {:induction false} NameLength(labels: seq<string>)
    requires |labels| >= 1
    requires forall i :: 0 <= i < |labels| ==> IsAscii(labels[i]) && |labels[i]| <= 255
    ensures NameWith(labels, ByteCount).Some?
    ensures |NameWith(labels, ByteCount).value| == |JoinWith(labels, ".")| + 1
    decreases |labels|
  {
    AsciiBytesOfAscii(labels[0]);
    if |labels| > 1 {
      NameLength(labels[1..]);
    } else {
      assert labels[1..] == [];
    }
  }

  /** `len(query) == len(name) + 18` for an ASCII name, with name the
      dot-stripped text, whenever its labels are short enough to encode. */
  lemma QueryLength(tid: u16, qname: string)
    requires IsAscii(qname)
    requires forall p :: p in Labels(qname) ==> |p| <= 255
    ensures EncodeQuery(tid, qname).Some?
    ensures |EncodeQuery(tid, qname).value| == |TrimChar(qname, '.')| + 18
  {
    var ls := Labels(qname);
    LabelsChars(qname);
    forall i | 0 <= i < |ls|
      ensures IsAscii(ls[i]) && |ls[i]| <= 255
    {
      assert ls[i] in ls;
      forall j | 0 <= j < |ls[i]|
        ensures ls[i][j] as int < 128
      {
        assert ls[i][j] in ls[i];
        var k :| 0 <= k < |qname| && qname[k] == ls[i][j];
      }
    }
    NameLength(ls);
    JoinSplitOn(TrimChar(qname, '.'), '.');
  }

  // ------------------------------------------------------------ query name

  lemma TrimCharNoop(s: string, c: char)
    requires s == [] || (s[0] != c && s[|s| - 1] != c)
    ensures TrimChar(s, c) == s
  {
  }

  /** The probe's name splits into the random number's digits followed by
      the labels of the tunnel domain (none when the domain is only dots). */
  lemma QueryNameLabels(n: nat, domain: string)
    requires 100000 <= n <= 999999
    ensures var t := TrimChar(domain, '.');
      Labels(QueryName(n, domain)) == [Decimal(n)] + (if t == [] then [] else SplitOn(t, '.'))
  {
    var d := Decimal(n);
    var t := TrimChar(domain, '.');
    assert '.' !in d by {
      assert forall i :: 0 <= i < |d| ==> IsDigit(d[i]);
    }
    assert d[0] != '.' by {
      assert IsDigit(d[0]);
    }
    var q := d + "." + t;
    if t == [] {
      assert q == d + ['.'];
      assert q[..|q| - 1] == d;
      TrimCharNoop(d, '.');
      assert TrimChar(q, '.') == d;
      SplitOnNoSep(d, '.');
    } else {
      TrimCharNoop(q, '.');
      assert q == d + ['.'] + t;
      SplitOnCons(d, '.', t);
    }
  }

  // ----------------------------------------------------------------- rcode

  /** `_dns_rcode(resp)`: the low four bits of the fourth byte, or nothing
      for a reply shorter than four bytes. */
  function Rcode(resp: seq<byte>): (r: Option<nat>)
    ensures r.Some? <==> |resp| >= 4
    ensures r.Some? ==> r.value < 16
  {
    if |resp| < 4 then None else Some(resp[3] % 16)
  }

  /** Masking a byte with 0x0F, as `resp[3] & 0x0F` does, leaves its
      remainder modulo 16. */
  lemma LowNibble(x: bv8)
    ensures (x & 0x0F) as int == x as int % 16
  {
    assert x & 0x0F == x % 16;
  }

  /** The fourth byte of a DNS header is RA (1 bit), Z (3 bits) and RCODE
      (4 bits), per section 4.1.1 of RFC 1035: `_dns_rcode` reads RCODE back
      whatever RA and Z hold. */
  lemma RcodeField(resp: seq<byte>, ra: nat, z: nat, rc: nat)
    requires |resp| >= 4 && ra < 2 && z < 8 && rc < 16
    requires resp[3] == ra * 128 + z * 16 + rc
    ensures Rcode(resp) == Some(rc)
  {
    assert resp[3] == 16 * (ra * 8 + z) + rc;
  }

  // ----------------------------------------------------------- the verdict

  /** What the socket gave back: a reply, `socket.timeout`, or any other
      exception. */
  datatype Reply = Answer(resp: seq<byte>) | TimedOut | Failed

  /** `fast_dns_tunnel_check`'s result: (ok, label, ms). */
  datatype Verdict = Verdict(ok: bool, status: string, ms: int)

  /** The socket timeout the probe sets, in milliseconds. */
  function SocketTimeoutMs(timeoutMs: int): (r: int)
    ensures r >= 50 && r >= timeoutMs
    ensures r == timeoutMs || r == 50
  {
    Max(timeoutMs, 50)
  }

  /** The table of `fast_dns_tunnel_check`, for a reply that came back after
      ms milliseconds: NOERROR and NXDOMAIN both mean the tunnel answered. */
  function Classify(reply: Reply, ms: nat): (v: Verdict)
    ensures v.ok <==> reply.Answer? && Rcode(reply.resp) in {Some(0), Some(3)}
    ensures reply.Answer? ==> v.ms == ms
    ensures !reply.Answer? ==> v.ms == -1
  {
    match reply
    case TimedOut => Verdict(false, "TIMEOUT", -1)
    case Failed => Verdict(false, "ERROR", -1)
    case Answer(resp) =>
      match Rcode(resp)
      case None => Verdict(false, "BadResp", ms)
      case Some(rc) =>
        if rc == 0 then Verdict(true, "OK (Resolved)", ms)
        else if rc == 3 then Verdict(true, "Tunnel Alive (NX)", ms)
        else if rc == 2 then Verdict(false, "ServFail", ms)
        else if rc == 5 then Verdict(false, "Refused", ms)
        else Verdict(false, "RCODE " + Decimal(rc), ms)
  }

  /** What a verdict's label reports. */
  datatype Outcome = Code(rc: nat) | Short | Timeout | Error | Unreadable

  /** The outcome a reply should be reported as: its RCODE, or why there
      is none. */
  function Expected(reply: Reply): Outcome
  {
    match reply
    case TimedOut => Timeout
    case Failed => Error
    case Answer(resp) => if Rcode(resp).Some? then Code(Rcode(resp).value) else Short
  }

  /** Reading a label back. Every RCODE has one label: a named one for 0, 2,
      3 and 5, "RCODE n" with n written without leading zeros for the
      others. */
  function ReadStatus(status: string): Outcome
  {
    if status == "OK (Resolved)" then Code(0)
    else if status == "Tunnel Alive (NX)" then Code(3)
    else if status == "ServFail" then Code(2)
    else if status == "Refused" then Code(5)
    else if status == "BadResp" then Short
    else if status == "TIMEOUT" then Timeout
    else if status == "ERROR" then Error
    else if StartsWith(status, "RCODE ") && CanonicalDecimal(status[6..])
         && DigitsValue(status[6..]) !in {0, 2, 3, 5}
    then Code(DigitsValue(status[6..]))
    else Unreadable
  }

  /** The label of a verdict reads back as what happened: the reply's RCODE,
      a short reply, a timeout or an error. */
  lemma StatusNamesOutcome(reply: Reply, ms: nat)
    ensures ReadStatus(Classify(reply, ms).status) == Expected(reply)
  {
    if reply.Answer? && Rcode(reply.resp).Some? {
      var rc := Rcode(reply.resp).value;
      if rc !in {0, 2, 3, 5} {
        RcodeLabel(rc);
      }
    }
  }

  /** "RCODE n" for an unnamed n reads back as n. */
  lemma RcodeLabel(rc: nat)
    requires rc !in {0, 2, 3, 5}
    ensures ReadStatus("RCODE " + Decimal(rc)) == Code(rc)
  {
    var st := "RCODE " + Decimal(rc);
    DecimalRoundTrip(rc);
    assert st[..6] == "RCODE ";
    assert st[6..] == Decimal(rc);
    assert CanonicalDecimal(Decimal(rc));
    assert st != "OK (Resolved)" && st != "ServFail" && st != "BadResp" by {
      assert st[0] == 'R';
    }
    assert st != "Tunnel Alive (NX)" && st != "TIMEOUT" && st != "ERROR" by {
      assert st[0] == 'R';
    }
    assert st != "Refused" by {
      assert st[1] == 'C';
    }
  }

  /** The label is the only text that reads back as its outcome, so no
      other label could be given for the same reply. */
  lemma StatusUnique(reply: Reply, ms: nat, s: string)
    requires ReadStatus(s) == Expected(reply)
    ensures s == Classify(reply, ms).status
  {
    StatusNamesOutcome(reply, ms);
    if StartsWith(s, "RCODE ") && CanonicalDecimal(s[6..]) && DigitsValue(s[6..]) !in {0, 2, 3, 5} {
      var v := DigitsValue(s[6..]);
      CanonicalRoundTrip(s[6..]);
      if ReadStatus(s) == Code(v) {
        assert s == s[..6] + s[6..];
      }
    }
  }

  // ------------------------------------------------------------ the probe

  /** A name fails to encode exactly when one of its labels is longer than
      `bytes([n])` allows. */
  lemma {:induction false} NameWithNone(labels: seq<string>, count: string -> nat)
    ensures NameWith(labels, count).None? <==> exists i :: 0 <= i < |labels| && count(labels[i]) > 255
    decreases |labels|
  {
    if |labels| > 0 {
      NameWithNone(labels[1..], count);
      if exists i :: 0 <= i < |labels| - 1 && count(labels[1..][i]) > 255 {
        var i :| 0 <= i < |labels| - 1 && count(labels[1..][i]) > 255;
        assert count(labels[i + 1]) > 255;
      }
      if exists i :: 0 <= i < |labels| && count(labels[i]) > 255 {
        var i :| 0 <= i < |labels| && count(labels[i]) > 255;
        if i > 0 {
          assert count(labels[1..][i - 1]) > 255;
        }
      }
    }
  }

  /** `fast_dns_tunnel_check` once the socket has given `reply` after ms
      milliseconds. The query is built before the `try`, so a label longer
      than 255 characters raises out of the probe (None) instead of being
      reported as a failure. */
  function Probe(tid: u16, n: nat, domain: string, reply: Reply, ms: nat): (r: Option<Verdict>)
    requires 100000 <= n <= 999999
    ensures r.None? <==> exists i :: 0 <= i < |Labels(QueryName(n, domain))| && |Labels(QueryName(n, domain))[i]| > 255
    ensures r.Some? ==> (r.value.ok <==> Expected(reply) in {Code(0), Code(3)})
    ensures r.Some? ==> ReadStatus(r.value.status) == Expected(reply)
    ensures r.Some? ==> r.value.ms == (if reply.Answer? then ms else -1)
  {
    NameWithNone(Labels(QueryName(n, domain)), CharCount);
    StatusNamesOutcome(reply, ms);
    match EncodeQueryAsWritten(tid, QueryName(n, domain))
    case None => None
    case Some(_) => Some(Classify(reply, ms))
  }
}

=== FILE: ipv4.dfy ===
/** IPv4 addresses and networks as the scanner reads and writes them through
    Python's `ipaddress` module: dotted-quad text, the prefix, netmask and
    hostmask forms of a network's mask, full expansion of a network in
    address order, and sampling distinct addresses of a network. IPv6 is
    never expanded by the scanner and is represented by "not an IPv4
    network". */
module IPv4 {
  import opened Basics
  import opened Text

  /** The number of IPv4 addresses. */
  const AddressSpace: nat := 0x1_0000_0000

  /** An IPv4 address as the 32-bit integer `int(IPv4Address(...))`. */
  type Address = a: int | 0 <= a < 0x1_0000_0000

  // ------------------------------------------------------------ dotted quads

  /** One octet of a dotted quad as `ipaddress` accepts it: 1 to 3 ASCII
      digits, no leading zero, value at most 255. An accepted octet is
      exactly the decimal rendering of its value. */
  function ParseOctet(p: string): (r: Option<nat>)
    ensures r.Some? ==> r.value < 256 && CanonicalDecimal(p) && Decimal(r.value) == p
  {
    if |p| == 0 || !AllDigits(p) then None
    else if |p| > 3 then None
    else if p != "0" && p[0] == '0' then None
    else if DigitsValue(p) > 255 then None
    else
      CanonicalRoundTrip(p);
      Some(DigitsValue(p))
  }

  function Combine(a: nat, b: nat, c: nat, d: nat): Address
    requires a < 256 && b < 256 && c < 256 && d < 256
  {
    ((a * 256 + b) * 256 + c) * 256 + d
  }

  /** `IPv4Address(s)`: exactly four dot-separated octets, most significant first. */
  function ParseAddress(s: string): (r: Option<Address>)
  {
    var parts := SplitOn(s, '.');
    if |parts| != 4 then None
    else
      match (ParseOctet(parts[0]), ParseOctet(parts[1]), ParseOctet(parts[2]), ParseOctet(parts[3]))
      case (Some(a), Some(b), Some(c), Some(d)) => Some(Combine(a, b, c, d))
      case _ => None
  }

  /** The four octets of an address, most significant first. */
  function Octets(a: Address): seq<nat>
  {
    var b := a / 256;
    var c := b / 256;
    [c / 256, c % 256, b % 256, a % 256]
  }

  /** The octets of an address are bytes and recombine to the address. */
  lemma OctetsSpec(a: Address)
    ensures |Octets(a)| == 4 && forall i :: 0 <= i < 4 ==> Octets(a)[i] < 256
    ensures Combine(Octets(a)[0], Octets(a)[1], Octets(a)[2], Octets(a)[3]) == a
  {
  }

  /** `str(IPv4Address(a))`: the dotted-quad text of an address. */
  function Format(a: Address): string
  {
    var o := Octets(a);
    JoinWith([Decimal(o[0]), Decimal(o[1]), Decimal(o[2]), Decimal(o[3])], ".")
  }

  lemma OctetRoundTrip(x: nat)
    requires x < 256
    ensures ParseOctet(Decimal(x)) == Some(x)
  {
    DecimalShort(x);
    DecimalRoundTrip(x);
  }

  lemma OctetsOfCombine(a: nat, b: nat, c: nat, d: nat)
    requires a < 256 && b < 256 && c < 256 && d < 256
    ensures Octets(Combine(a, b, c, d)) == [a, b, c, d]
  {
    var x := Combine(a, b, c, d);
    assert x == ((a * 256 + b) * 256 + c) * 256 + d;
    assert x % 256 == d && x / 256 == (a * 256 + b) * 256 + c;
    var y := x / 256;
    assert y % 256 == c && y / 256 == a * 256 + b;
    var z := y / 256;
    assert z % 256 == b && z / 256 == a;
  }

  /** Reading back the text of an address gives the address. */
  lemma ParseFormat(a: Address)
    ensures ParseAddress(Format(a)) == Some(a)
  {
    OctetsSpec(a);
    var o := Octets(a);
    var ds := [Decimal(o[0]), Decimal(o[1]), Decimal(o[2]), Decimal(o[3])];
    forall p | p in ds
      ensures '.' !in p
    {
      assert AllDigits(p);
    }
    SplitOnJoin(ds, '.');
    assert SplitOn(Format(a), '.') == ds;
    OctetRoundTrip(o[0]);
    OctetRoundTrip(o[1]);
    OctetRoundTrip(o[2]);
    OctetRoundTrip(o[3]);
  }

  /** Every text the parser accepts is the canonical text of its address:
      no leading zeros, nothing around the octets. */
  lemma FormatParse(s: string)
    requires ParseAddress(s).Some?
    ensures Format(ParseAddress(s).value) == s
  {
    var parts := SplitOn(s, '.');
    var a := ParseOctet(parts[0]).value;
    var b := ParseOctet(parts[1]).value;
    var c := ParseOctet(parts[2]).value;
    var d := ParseOctet(parts[3]).value;
    OctetsOfCombine(a, b, c, d);
    assert parts == [Decimal(a), Decimal(b), Decimal(c), Decimal(d)];
    JoinSplitOn(s, '.');
  }

  /** Different addresses have different texts. */
  lemma FormatInjective(a: Address, b: Address)
    requires Format(a) == Format(b)
    ensures a == b
  {
    ParseFormat(a);
    ParseFormat(b);
  }

  // ------------------------------------------------------------------- masks

  /** `num_addresses` of a /p network. */
  function Size(p: nat): (n: nat)
    requires p <= 32
    ensures n >= 1
  {
    Pow2(32 - p)
  }

  /** The netmask of a /p network: p one bits followed by 32 - p zero bits. */
  function Netmask(p: nat): int
    requires p <= 32
  {
    AddressSpace - Size(p)
  }

  lemma Pow2ThirtyTwo()
    ensures Pow2(32) == AddressSpace
  {
    assert Pow2(4) == 16 by {
      assert Pow2(1) == 2;
      assert Pow2(2) == 4;
      assert Pow2(3) == 8;
    }
    Pow2Add(4, 4);
    assert Pow2(8) == 256;
    Pow2Add(8, 8);
    assert Pow2(16) == 0x1_0000;
    Pow2Add(16, 16);
  }

  /** The netmasks of different prefix lengths differ. */
  lemma {:induction false} Pow2StrictlyIncreasing(a: nat, b: nat)
    requires a < b
    ensures Pow2(a) < Pow2(b)
    decreases b
  {
    if a < b - 1 {
      Pow2StrictlyIncreasing(a, b - 1);
    }
  }

  /** The prefix length p' >= p whose netmask is exactly m, if there is one. */
  function PrefixOfMask(m: int, p: nat): (r: Option<nat>)
    requires p <= 33
    ensures r.Some? ==> p <= r.value <= 32 && Netmask(r.value) == m
    ensures r.None? ==> forall q :: p <= q <= 32 ==> Netmask(q) != m
    decreases 33 - p
  {
    if p > 32 then None
    else if Netmask(p) == m then Some(p)
    else PrefixOfMask(m, p + 1)
  }

  /** `_prefix_from_prefix_string`: ASCII digits (leading zeros allowed) with
      a value of at most 32. */
  function PrefixFromDigits(m: string): (r: Option<nat>)
    ensures r.Some? ==> r.value <= 32
  {
    if |m| > 0 && AllDigits(m) && DigitsValue(m) <= 32 then Some(DigitsValue(m)) else None
  }

  /** `_prefix_from_ip_string`: a dotted netmask (ones then zeros), or else a
      dotted hostmask (zeros then ones, the netmask with every bit flipped). */
  function PrefixFromMaskText(m: string): (r: Option<nat>)
    ensures r.Some? ==> r.value <= 32
  {
    match ParseAddress(m)
    case None => None
    case Some(x) =>
      var asNetmask := PrefixOfMask(x, 0);
      if asNetmask.Some? then asNetmask else PrefixOfMask(AddressSpace - 1 - x, 0)
  }

  /** `_make_netmask` for the text after the '/': a prefix length, or a mask
      written as a dotted quad. */
  function ParsePrefix(m: string): (r: Option<nat>)
    ensures r.Some? ==> r.value <= 32
  {
    var d := PrefixFromDigits(m);
    if d.Some? then d else PrefixFromMaskText(m)
  }

  // ---------------------------------------------------------------- networks

  /** An IPv4 network: its first address and its prefix length. */
  datatype Network = Network(base: Address, prefix: nat)

  lemma MulMonotone(m: nat, x: nat, y: nat)
    requires x <= y
    ensures m * x <= m * y
  {
  }

  /** Euclidean division is unique. */
  lemma DivModUnique(a: int, m: nat, k: int, r: int)
    requires m >= 1 && a == m * k + r && 0 <= r < m
    ensures a % m == r
  {
    var k' := a / m;
    var r' := a % m;
    assert a == m * k' + r';
    assert m * (k - k') == r' - r;
    if k > k' {
      MulMonotone(m, 1, k - k');
      assert false;
    } else if k < k' {
      MulMonotone(m, 1, k' - k);
      assert false;
    }
  }

  lemma MultipleMod(m: nat, q: nat)
    requires m >= 1
    ensures (m * q) % m == 0
  {
    DivModUnique(m * q, m, q, 0);
  }

  /** Rounding a down to a multiple of m gives a multiple of m no larger than
      a, and keeps a whole block of m inside [0, m * blocks). */
  lemma BlockFits(a: nat, m: nat, blocks: nat)
    requires m >= 1 && a < m * blocks
    ensures a - a % m >= 0 && (a - a % m) % m == 0
    ensures a - a % m + m <= m * blocks
  {
    var q := a / m;
    assert a == m * q + a % m;
    MultipleMod(m, q);
    if q >= blocks {
      MulMonotone(m, blocks, q);
      assert false;
    }
    MulMonotone(m, q + 1, blocks);
    assert m * (q + 1) == m * q + m;
  }

  /** The /p network holding a fills a whole aligned block. */
  lemma SizeBlocks(p: nat)
    requires p <= 32
    ensures Size(p) * Pow2(p) == AddressSpace
  {
    Pow2Add(32 - p, p);
    Pow2ThirtyTwo();
  }

  /** The first address of the /p network holding a: a with its host bits
      cleared (`packed & netmask`, as `strict=False` does). The whole
      network fits in the address space. */
  function NetworkBase(a: Address, p: nat): (b: Address)
    requires p <= 32
    ensures b <= a && b % Size(p) == 0
    ensures b + Size(p) <= AddressSpace
  {
    var m := Size(p);
    SizeBlocks(p);
    BlockFits(a, m, Pow2(p));
    a - a % m
  }

  /** `ipaddress.ip_network(v, strict=False)` when it yields an IPv4 network;
      None when it raises or yields an IPv6 network. */
  function ParseNetwork(v: string): (r: Option<Network>)
    ensures r.Some? ==> r.value.prefix <= 32
    ensures r.Some? ==> r.value.base % Size(r.value.prefix) == 0
    ensures r.Some? ==> r.value.base + Size(r.value.prefix) <= AddressSpace
  {
    var parts := SplitOn(v, '/');
    if |parts| > 2 then None
    else
      match ParseAddress(parts[0])
      case None => None
      case Some(a) =>
        var p := if |parts| == 1 then Some(32) else ParsePrefix(parts[1]);
        match p
        case None => None
        case Some(len) => Some(Network(NetworkBase(a, len), len))
  }

  /** The text of an address holds dots and digits only, and at least one
      dot, so it is never read as a prefix length. */
  lemma FormatText(a: Address)
    ensures '/' !in Format(a) && '.' in Format(a)
    ensures !(|Format(a)| > 0 && AllDigits(Format(a)))
  {
    var o := Octets(a);
    var ds := [Decimal(o[0]), Decimal(o[1]), Decimal(o[2]), Decimal(o[3])];
    JoinChars(ds, ".", c => IsDigit(c) || c == '.');
    ParseFormat(a);
    if '.' !in Format(a) {
      SplitOnNoSep(Format(a), '.');
      assert false;
    }
  }

  /** The netmask of a /p network is an address. */
  lemma NetmaskIsAddress(p: nat)
    requires p <= 32
    ensures 0 <= Netmask(p) < AddressSpace
  {
    SizeBlocks(p);
    assert Pow2(p) >= 1;
    MulMonotone(Size(p), 1, Pow2(p));
  }

  /** The text after the '/' names the prefix length it carries as digits. */
  lemma PrefixOfDigits(p: nat)
    requires p <= 32
    ensures ParsePrefix(Decimal(p)) == Some(p)
  {
    DecimalRoundTrip(p);
  }

  /** A dotted netmask names its own prefix length. */
  lemma PrefixOfNetmask(p: nat)
    requires p <= 32
    ensures 0 <= Netmask(p) < AddressSpace
    ensures ParsePrefix(Format(Netmask(p))) == Some(p)
  {
    NetmaskIsAddress(p);
    var m: Address := Netmask(p);
    FormatText(m);
    ParseFormat(m);
    NetmaskUnique(p, PrefixOfMask(m, 0));
  }

  /** Only the /p netmask equals the /p netmask. */
  lemma NetmaskUnique(p: nat, r: Option<nat>)
    requires p <= 32 && r == PrefixOfMask(Netmask(p), 0)
    ensures r == Some(p)
  {
    if r.Some? {
      var q := r.value;
      assert q <= 32 && Netmask(q) == Netmask(p);
      NetmaskInjective(p, q);
    }
  }

  lemma NetmaskInjective(p: nat, q: nat)
    requires p <= 32 && q <= 32 && Netmask(q) == Netmask(p)
    ensures p == q
  {
    assert Pow2(32 - p) == Pow2(32 - q);
    if q < p {
      Pow2StrictlyIncreasing(32 - p, 32 - q);
    } else if p < q {
      Pow2StrictlyIncreasing(32 - q, 32 - p);
    }
  }

  /** Half the address space, and every smaller power of two below it. */
  lemma Pow2Half(e: nat)
    requires e <= 31
    ensures Pow2(e) <= Pow2(31) && 2 * Pow2(31) == AddressSpace
  {
    if e < 31 {
      Pow2StrictlyIncreasing(e, 31);
    }
    Pow2Add(31, 1);
    assert Pow2(1) == 2;
    Pow2ThirtyTwo();
  }

  /** The hostmask of a /p network: its netmask with every bit flipped. */
  function Hostmask(p: nat): int
    requires p <= 32
  {
    Size(p) - 1
  }

  /** A hostmask of a /p network with 0 < p < 32 is no netmask: it is
      nonzero, and below every nonzero netmask. */
  lemma HostmaskNotNetmask(p: nat, q: nat)
    requires 0 < p < 32 && q <= 32
    ensures Netmask(q) != Hostmask(p)
  {
    Pow2StrictlyIncreasing(0, 32 - p);
    assert Hostmask(p) >= 1;
    if q == 0 {
      Pow2ThirtyTwo();
      assert Netmask(q) == 0;
    } else {
      Pow2Half(32 - q);
      Pow2Half(32 - p);
      assert Netmask(q) >= Pow2(31);
      assert Hostmask(p) < Pow2(31);
    }
  }

  /** A dotted hostmask names the prefix length whose netmask it flips,
      when it is not itself a netmask (0 < p < 32). */
  lemma PrefixOfHostmask(p: nat)
    requires 0 < p < 32
    ensures 0 <= Hostmask(p) < AddressSpace
    ensures ParsePrefix(Format(Hostmask(p))) == Some(p)
  {
    NetmaskIsAddress(p);
    SizeBlocks(p);
    var h: Address := Hostmask(p);
    FormatText(h);
    ParseFormat(h);
    var r := PrefixOfMask(h, 0);
    if r.Some? {
      HostmaskNotNetmask(p, r.value);
    }
    assert AddressSpace - 1 - h == Netmask(p);
    NetmaskUnique(p, PrefixOfMask(AddressSpace - 1 - h, 0));
  }

  /** An address with a mask text after the '/' is the network of that
      address under the prefix length the mask text names. */
  lemma ParseNetworkWithMask(a: Address, m: string, p: nat)
    requires '/' !in m && p <= 32 && ParsePrefix(m) == Some(p)
    ensures ParseNetwork(Format(a) + "/" + m) == Some(Network(NetworkBase(a, p), p))
  {
    FormatText(a);
    SplitOnCons(Format(a), '/', m);
    SplitOnNoSep(m, '/');
    ParseFormat(a);
  }

  /** `ip_network("a.b.c.d/p", strict=False)` is the /p network holding the
      address. */
  lemma ParseNetworkPrefix(a: Address, p: nat)
    requires p <= 32
    ensures ParseNetwork(Format(a) + "/" + Decimal(p)) == Some(Network(NetworkBase(a, p), p))
  {
    PrefixOfDigits(p);
    ParseNetworkWithMask(a, Decimal(p), p);
  }

  /** The same network written with a dotted netmask. */
  lemma ParseNetworkNetmask(a: Address, p: nat)
    requires p <= 32
    ensures 0 <= Netmask(p) < AddressSpace
    ensures ParseNetwork(Format(a) + "/" + Format(Netmask(p))) == Some(Network(NetworkBase(a, p), p))
  {
    PrefixOfNetmask(p);
    FormatText(Netmask(p));
    ParseNetworkWithMask(a, Format(Netmask(p)), p);
  }

  /** The same network written with a dotted hostmask; at p = 0 and p = 32
      the hostmask text is also a netmask and is read as one. */
  lemma ParseNetworkHostmask(a: Address, p: nat)
    requires 0 < p < 32
    ensures 0 <= Hostmask(p) < AddressSpace
    ensures ParseNetwork(Format(a) + "/" + Format(Hostmask(p))) == Some(Network(NetworkBase(a, p), p))
  {
    PrefixOfHostmask(p);
    FormatText(Hostmask(p));
    ParseNetworkWithMask(a, Format(Hostmask(p)), p);
  }

  /** A bare address is the /32 network holding only that address. */
  lemma ParseNetworkAddress(a: Address)
    ensures ParseNetwork(Format(a)) == Some(Network(a, 32))
  {
    FormatText(a);
    SplitOnNoSep(Format(a), '/');
    ParseFormat(a);
    HostBase(a);
  }

  /** The /32 network of an address starts at that address. */
  lemma HostBase(a: Address)
    ensures NetworkBase(a, 32) == a
  {
    assert Size(32) == 1;
  }

  /** The network lies inside the address space. */
  predicate Fits(net: Network) {
    net.prefix <= 32 && net.base + Size(net.prefix) <= AddressSpace
  }

  /** The addresses of a network in order: offset `off` holds
      `network_address + off`. */
  function Addresses(net: Network): seq<Address>
    requires Fits(net)
  {
    var n := Size(net.prefix);
    seq(n, (off: int) requires 0 <= off < n => net.base + off)
  }

  /** The texts of a sequence of addresses, element by element. */
  function Texts(addrs: seq<Address>): (r: seq<string>)
    ensures |r| == |addrs|
  {
    seq(|addrs|, (i: int) requires 0 <= i < |addrs| => Format(addrs[i]))
  }

  /** The texts of distinct addresses are distinct, and each reads back as its
      address. */
  lemma TextsSpec(addrs: seq<Address>)
    requires NoDup(addrs)
    ensures NoDup(Texts(addrs))
    ensures forall i :: 0 <= i < |addrs| ==> ParseAddress(Texts(addrs)[i]) == Some(addrs[i])
  {
    var r := Texts(addrs);
    forall i | 0 <= i < |addrs|
      ensures ParseAddress(r[i]) == Some(addrs[i])
    {
      ParseFormat(addrs[i]);
    }
    forall i, j | 0 <= i < j < |r|
      ensures r[i] != r[j]
    {
      if r[i] == r[j] {
        FormatInjective(addrs[i], addrs[j]);
      }
    }
  }

  /** r lists the texts of net's addresses in order: one per address, each
      reading back as `network_address + off`. */
  predicate ListsNetwork(r: seq<string>, net: Network)
    requires net.prefix <= 32
  {
    && |r| == Size(net.prefix)
    && forall off :: 0 <= off < |r| ==> ParseAddress(r[off]) == Some(net.base + off)
  }

  /** A network's addresses are distinct, offset `off` holding
      `network_address + off`. */
  lemma AddressesSpec(net: Network)
    requires Fits(net)
    ensures |Addresses(net)| == Size(net.prefix) && NoDup(Addresses(net))
    ensures forall off :: 0 <= off < |Addresses(net)| ==> Addresses(net)[off] == net.base + off
  {
  }

  lemma NetworkTexts(net: Network)
    requires Fits(net)
    ensures ListsNetwork(Texts(Addresses(net)), net)
    ensures NoDup(Texts(Addresses(net)))
  {
    var addrs := Addresses(net);
    AddressesSpec(net);
    TextsSpec(addrs);
    ListsByOffset(Texts(addrs), addrs, net);
  }

  lemma ListsByOffset(r: seq<string>, addrs: seq<Address>, net: Network)
    requires net.prefix <= 32 && |r| == |addrs| == Size(net.prefix)
    requires forall off :: 0 <= off < |addrs| ==> addrs[off] == net.base + off
    requires forall i :: 0 <= i < |addrs| ==> ParseAddress(r[i]) == Some(addrs[i])
    ensures ListsNetwork(r, net)
  {
  }

  /** Every address of the network in v, in order, with no repeats; text that
      is not an IPv4 network expands to nothing. */
  function Expand(v: string): (r: seq<string>)
    ensures ParseNetwork(v).None? ==> r == []
    ensures ParseNetwork(v).Some? ==> ListsNetwork(r, ParseNetwork(v).value)
    ensures NoDup(r)
  {
    var pn := ParseNetwork(v);
    if pn.None? then []
    else
      NetworkTexts(pn.value);
      Texts(Addresses(pn.value))
  }

  // ---------------------------------------------------------------- sampling

  /** `min(max(0, k), total)`: how many addresses a sample of k takes from a
      network of n. */
  function SampleSize(k: int, n: nat): nat
  {
    Min(Max(0, k), n)
  }

  /** What `random.sample(range(n), k)` can return: k distinct offsets below n. */
  predicate IsDraw(picks: seq<nat>, k: nat, n: nat) {
    && |picks| == k
    && NoDup(picks)
    && forall i :: 0 <= i < |picks| ==> picks[i] < n
  }

  /** picks is a possible outcome of the draw `_cidr_sample_ips(v, k)` makes
      (no draw is made when the sample is empty). */
  predicate DrawFor(v: string, k: int, picks: seq<nat>) {
    match ParseNetwork(v)
    case None => true
    case Some(net) =>
      var n := Size(net.prefix);
      SampleSize(k, n) > 0 ==> IsDraw(picks, SampleSize(k, n), n)
  }

  /** The addresses at the drawn offsets of a network. */
  function Picked(net: Network, picks: seq<nat>): seq<Address>
    requires Fits(net)
    requires forall i :: 0 <= i < |picks| ==> picks[i] < Size(net.prefix)
  {
    seq(|picks|, (i: int) requires 0 <= i < |picks| => net.base + picks[i])
  }

  /** Distinct offsets pick distinct addresses of the network. */
  lemma PickedSpec(net: Network, picks: seq<nat>)
    requires Fits(net) && IsDraw(picks, |picks|, Size(net.prefix))
    ensures NoDup(Picked(net, picks))
    ensures forall i :: 0 <= i < |picks| ==> Picked(net, picks)[i] == Addresses(net)[picks[i]]
  {
  }

  /** Texts of addresses drawn from a sequence are texts of that sequence. */
  lemma TextsSubset(sub: seq<Address>, all: seq<Address>, at: seq<nat>)
    requires |at| == |sub| && forall i :: 0 <= i < |at| ==> at[i] < |all| && sub[i] == all[at[i]]
    ensures forall x :: x in Texts(sub) ==> x in Texts(all)
  {
    forall x | x in Texts(sub)
      ensures x in Texts(all)
    {
      var i :| 0 <= i < |sub| && Texts(sub)[i] == x;
      assert Texts(all)[at[i]] == x;
    }
  }

  /** `_cidr_sample_ips(v, k)` with the random draw given as picks: exactly
      `min(max(0, k), num_addresses)` pairwise-distinct addresses, every one
      of them an address of the network; nothing for text that is not an
      IPv4 network. */
  function Sample(v: string, k: int, picks: seq<nat>): (r: seq<string>)
    requires DrawFor(v, k, picks)
    ensures ParseNetwork(v).None? ==> r == []
    ensures ParseNetwork(v).Some? ==> |r| == SampleSize(k, Size(ParseNetwork(v).value.prefix))
    ensures NoDup(r)
    ensures forall x :: x in r ==> x in Expand(v)
  {
    match ParseNetwork(v)
    case None => []
    case Some(net) =>
      var n := Size(net.prefix);
      var kk := SampleSize(k, n);
      if kk <= 0 then []
      else
        var addrs := Picked(net, picks);
        PickedSpec(net, picks);
        TextsSpec(addrs);
        TextsSubset(addrs, Addresses(net), picks);
        Texts(addrs)
  }
}

=== FILE: socks.dfy ===
/** The end-to-end test the scanner runs through a local SOCKS5 proxy
    (section 3 of RFC 1928): the readiness probe, the greeting, the CONNECT
    request by domain name, and the result line `realtest_one` reports.
    Sockets, clocks and the TLS layer are inputs: each exchange is given as
    what it returned -- the bytes received, a timeout, or another error. */
module Socks {
  import opened Basics
  import opened Text

  // ----------------------------------------------------------------- UTF-8

  /** `str.encode("utf-8")` of one character (a Unicode scalar value), as in
      section 3 of RFC 3629. */
  function Utf8Char(c: char): (r: seq<byte>)
    ensures 1 <= |r| <= 4
    ensures |r| == 1 <==> (c as int) < 0x80
  {
    var n := c as int;
    if n < 0x80 then [n]
    else if n < 0x800 then [0xC0 + n / 64, 0x80 + n % 64]
    else if n < 0x1_0000 then [0xE0 + n / 4096, 0x80 + (n / 64) % 64, 0x80 + n % 64]
    else [0xF0 + n / 262144, 0x80 + (n / 4096) % 64, 0x80 + (n / 64) % 64, 0x80 + n % 64]
  }

  /** `host.encode("utf-8", "ignore")`: every character of a Dafny string is
      a scalar value, so none is dropped. The encoding is never shorter than
      the text. */
  function Utf8(s: string): (r: seq<byte>)
    ensures |r| >= |s|
  {
    if |s| == 0 then [] else Utf8Char(s[0]) + Utf8(s[1..])
  }

  predicate IsContinuation(b: byte) {
    0x80 <= b < 0xC0
  }

  /** The code point at the front of b and the number of bytes it takes, or
      None when b does not start with a well-formed sequence. */
  function DecodeChar(b: seq<byte>): Option<(int, nat)>
  {
    if |b| == 0 then None
    else
      var b0 := b[0] as int;
      if b0 < 0x80 then Some((b0, 1))
      else if 0xC0 <= b0 < 0xE0 && |b| >= 2 && IsContinuation(b[1]) then
        Some(((b0 - 0xC0) * 64 + (b[1] as int - 0x80), 2))
      else if 0xE0 <= b0 < 0xF0 && |b| >= 3 && IsContinuation(b[1]) && IsContinuation(b[2]) then
        Some(((b0 - 0xE0) * 4096 + (b[1] as int - 0x80) * 64 + (b[2] as int - 0x80), 3))
      else if 0xF0 <= b0 < 0xF8 && |b| >= 4 && IsContinuation(b[1]) && IsContinuation(b[2]) && IsContinuation(b[3]) then
        Some(((b0 - 0xF0) * 262144 + (b[1] as int - 0x80) * 4096 + (b[2] as int - 0x80) * 64 + (b[3] as int - 0x80), 4))
      else None
  }

  /** The code points of a UTF-8 byte string. */
  function DecodeUtf8(b: seq<byte>): Option<seq<int>>
    decreases |b|
  {
    if |b| == 0 then Some([])
    else
      match DecodeChar(b)
      case None => None
      case Some((cp, k)) =>
        if k == 0 || k > |b| then None
        else
          match DecodeUtf8(b[k..])
          case None => None
          case Some(cps) => Some([cp] + cps)
  }

  function CodePoints(s: string): (r: seq<int>)
    ensures |r| == |s|
  {
    seq(|s|, (i: int) requires 0 <= i < |s| => s[i] as int)
  }

  /** One character's encoding decodes back to that character, whatever
      follows it. */
  lemma DecodeUtf8Char(c: char, rest: seq<byte>)
    ensures DecodeChar(Utf8Char(c) + rest) == Some((c as int, |Utf8Char(c)|))
  {
    var n := c as int;
    if n < 0x80 {
    } else if n < 0x800 {
      DecodeTwo(n, Utf8Char(c) + rest);
    } else if n < 0x1_0000 {
      DecodeThree(n, Utf8Char(c) + rest);
    } else {
      DecodeFour(n, Utf8Char(c) + rest);
    }
  }

  lemma DecodeTwo(n: int, b: seq<byte>)
    requires 0x80 <= n < 0x800 && |b| >= 2
    requires b[0] == 0xC0 + n / 64 && b[1] == 0x80 + n % 64
    ensures DecodeChar(b) == Some((n, 2))
  {
  }

  lemma DecodeThree(n: int, b: seq<byte>)
    requires 0x800 <= n < 0x1_0000 && |b| >= 3
    requires b[0] == 0xE0 + n / 4096 && b[1] == 0x80 + (n / 64) % 64 && b[2] == 0x80 + n % 64
    ensures DecodeChar(b) == Some((n, 3))
  {
    var q := n / 64;
    assert n == q * 64 + n % 64;
    assert q == (q / 64) * 64 + q % 64;
    assert q / 64 == n / 4096;
  }

  lemma DecodeFour(n: int, b: seq<byte>)
    requires 0x1_0000 <= n < 0x11_0000 && |b| >= 4
    requires b[0] == 0xF0 + n / 262144 && b[1] == 0x80 + (n / 4096) % 64
    requires b[2] == 0x80 + (n / 64) % 64 && b[3] == 0x80 + n % 64
    ensures DecodeChar(b) == Some((n, 4))
  {
    var q := n / 64;
    var h := q / 64;
    assert n == q * 64 + n % 64;
    assert q == h * 64 + q % 64;
    assert h == (h / 64) * 64 + h % 64;
    assert h == n / 4096;
    assert h / 64 == n / 262144;
  }

  /** Decoding inverts the encoding: the host's bytes read back as its
      characters. */
  lemma {:induction false} DecodeUtf8RoundTrip(s: string)
    ensures DecodeUtf8(Utf8(s)) == Some(CodePoints(s))
    decreases |s|
  {
    if |s| > 0 {
      var e := Utf8Char(s[0]);
      var tail := Utf8(s[1..]);
      DecodeUtf8Char(s[0], tail);
      assert Utf8(s) == e + tail;
      assert (e + tail)[|e|..] == tail;
      DecodeUtf8RoundTrip(s[1..]);
      assert CodePoints(s) == [s[0] as int] + CodePoints(s[1..]);
    }
  }

  /** An ASCII host is sent one byte per character. */
  lemma {:induction false} Utf8OfAscii(s: string)
    requires IsAscii(s)
    ensures Utf8(s) == CodePoints(s)
    decreases |s|
  {
    if |s| > 0 {
      assert IsAscii(s[1..]) by {
        assert forall i :: 0 <= i < |s| - 1 ==> s[1..][i] == s[i + 1];
      }
      Utf8OfAscii(s[1..]);
      assert CodePoints(s) == [s[0] as int] + CodePoints(s[1..]);
    }
  }

  // ---------------------------------------------------------------- framing

  /** The greeting both `_socks5_probe` and `_real_ping_via_socks` send:
      version 5, one method offered, method 0 (no authentication), as laid
      out in section 3 of RFC 1928. */
  const Greeting: seq<byte> := [5, 1, 0]

  /** What a SOCKS5 server reads from a greeting: the methods it offers, or
      None for a message that is not a version-5 greeting. */
  function GreetingMethods(req: seq<byte>): Option<seq<byte>>
  {
    if |req| < 2 || req[0] != 5 || |req| != 2 + req[1] as int then None
    else Some(req[2..])
  }

  /** The greeting offers exactly one method, no authentication. Both checks
      judge the reply against it: the probe accepts exactly the reply
      "version 5, method 0"; the real test accepts any two-byte reply
      that selects the one method offered. */
  lemma GreetingOffersNoAuth(r: seq<byte>)
    ensures GreetingMethods(Greeting) == Some([0])
    ensures ProbeAccepts(r) <==> r == [Greeting[0]] + GreetingMethods(Greeting).value
    ensures GreetingAccepted(r) <==> |r| == 2 && r[1] in GreetingMethods(Greeting).value
  {
  }

  /** What `_socks5_probe` accepts as the reply to the greeting: exactly two
      bytes, version 5 and method 0. */
  predicate ProbeAccepts(r: seq<byte>) {
    |r| == 2 && r[0] == 5 && r[1] == 0
  }

  /** What `_real_ping_via_socks` accepts as the reply to the greeting: two
      bytes, method 0; the version byte is not looked at. */
  predicate GreetingAccepted(r: seq<byte>) {
    |r| == 2 && r[1] == 0
  }

  /** The real test accepts every reply the probe accepts, and one more: a
      reply that names the wrong version. */
  lemma ProbeStricter(r: seq<byte>)
    ensures ProbeAccepts(r) ==> GreetingAccepted(r)
    ensures GreetingAccepted([4, 0]) && !ProbeAccepts([4, 0])
  {
  }

  /** The CONNECT request: version 5, CONNECT, reserved, address type 3
      (domain name), the name's length and bytes, the port big-endian.
      None when the name is longer than 255 bytes (`bytes([n])` raises) or
      the port does not fit in two bytes (`to_bytes(2, "big")` raises). */
  function ConnectRequest(host: string, port: int): (r: Option<seq<byte>>)
    ensures r.Some? <==> |Utf8(host)| <= 255 && 0 <= port < 0x1_0000
    ensures r.Some? ==> |r.value| == 7 + |Utf8(host)|
  {
    var hb := Utf8(host);
    if |hb| > 255 || port < 0 || port >= 0x1_0000 then None
    else Some([5, 1, 0, 3, |hb|] + hb + [port / 256, port % 256])
  }

  /** What a SOCKS5 server reads from a CONNECT request by domain name: the
      name's bytes and the port. */
  function ParseConnect(req: seq<byte>): Option<(seq<byte>, u16)>
  {
    if |req| < 5 || req[..4] != [5, 1, 0, 3] || |req| != 7 + req[4] as int then None
    else
      var n := req[4] as int;
      Some((req[5..5 + n], req[5 + n] as int * 256 + req[6 + n] as int))
  }

  /** A request that could be built reads back as the host's bytes and the
      port. */
  lemma ConnectRoundTrip(host: string, port: int)
    requires ConnectRequest(host, port).Some?
    ensures ParseConnect(ConnectRequest(host, port).value) == Some((Utf8(host), port))
  {
    var hb := Utf8(host);
    var req := ConnectRequest(host, port).value;
    assert req[..4] == [5, 1, 0, 3];
    assert req[4] == |hb|;
    assert req[5..5 + |hb|] == hb;
    assert req[5 + |hb|] == port / 256 && req[6 + |hb|] == port % 256;
  }

  /** The reply to CONNECT succeeded: at least two bytes, status 0. */
  predicate ConnectSucceeded(rep: seq<byte>) {
    |rep| >= 2 && rep[1] == 0
  }

  // ------------------------------------------------------------- real ping

  /** What one socket exchange came to. */
  datatype Exchange =
    | Received(data: seq<byte>)  // the bytes `recv` returned
    | TimedOut                   // `socket.timeout`
    | Failed                     // any other exception

  /** The (ms, status) pair `_real_ping_via_socks` returns. */
  datatype Ping = Ping(ms: int, status: string)

  /** The status of a stage that raised: -1, and TIMEOUT for
      `socket.timeout`, ERROR for any other exception. */
  function Broken(e: Exchange): (p: Ping)
    requires !e.Received?
    ensures p.ms == -1
    ensures p.status == "TIMEOUT" <==> e.TimedOut?
    ensures p.status == "ERROR" <==> e.Failed?
  {
    if e.TimedOut? then Ping(-1, "TIMEOUT") else Ping(-1, "ERROR")
  }

  /** The greeting was answered and the answer accepted. */
  predicate Greeted(greet: Exchange) {
    greet.Received? && GreetingAccepted(greet.data)
  }

  /** The CONNECT was answered and the answer reports success. */
  predicate Connected(connect: Exchange) {
    connect.Received? && ConnectSucceeded(connect.data)
  }

  /** The requests `_real_ping_via_socks` writes once the TCP connection is
      up: always the greeting, then the CONNECT request when the greeting was
      accepted and the request could be built. */
  function PingRequests(host: string, dstPort: int, greet: Exchange): (r: seq<seq<byte>>)
    ensures 1 <= |r| <= 2 && r[0] == Greeting
    ensures |r| == 2 <==> Greeted(greet) && ConnectRequest(host, dstPort).Some?
    ensures |r| == 2 ==> ParseConnect(r[1]) == Some((Utf8(host), dstPort))
  {
    if Greeted(greet) && ConnectRequest(host, dstPort).Some? then
      ConnectRoundTrip(host, dstPort);
      [Greeting, ConnectRequest(host, dstPort).value]
    else [Greeting]
  }

  /** `_real_ping_via_socks(port, timeout, host, dst_port)`. `greet` is the
      TCP connect, the greeting and its reply; `connect` the CONNECT request
      and its reply; `tls` the TLS handshake and the HTTP request through
      it; `elapsedMs` the whole exchange's duration in milliseconds. Only
      when every stage succeeds is the duration reported. */
  function RealPing(host: string, dstPort: int, greet: Exchange, connect: Exchange, tls: Exchange, elapsedMs: nat): (p: Ping)
    ensures p.ms >= 0 <==>
      && greet.Received? && GreetingAccepted(greet.data)
      && ConnectRequest(host, dstPort).Some?
      && connect.Received? && ConnectSucceeded(connect.data)
      && tls.Received?
    ensures p.ms >= 0 ==> p.ms == elapsedMs
    ensures p.ms < 0 ==> p.ms == -1 && p.status in {"SOCKS FAIL", "TIMEOUT", "ERROR"}
    // stage by stage: the first stage that goes wrong names the failure
    ensures !greet.Received? ==> p == Broken(greet)
    ensures greet.Received? && !GreetingAccepted(greet.data) ==> p == Ping(-1, "SOCKS FAIL")
    ensures Greeted(greet) && ConnectRequest(host, dstPort).None? ==> p == Ping(-1, "ERROR")
    ensures Greeted(greet) && ConnectRequest(host, dstPort).Some? ==>
      && (!connect.Received? ==> p == Broken(connect))
      && (connect.Received? && !ConnectSucceeded(connect.data) ==> p == Ping(-1, "SOCKS FAIL"))
      && (Connected(connect) && !tls.Received? ==> p == Broken(tls))
  {
    if !greet.Received? then Broken(greet)
    else if !GreetingAccepted(greet.data) then Ping(-1, "SOCKS FAIL")
    else if ConnectRequest(host, dstPort).None? then Ping(-1, "ERROR")
    else if !connect.Received? then Broken(connect)
    else if !ConnectSucceeded(connect.data) then Ping(-1, "SOCKS FAIL")
    else if !tls.Received? then Broken(tls)
    else Ping(elapsedMs, Decimal(elapsedMs) + " ms")
  }

  /** The duration a status line reports, read back: the number before a
      trailing " ms", or None. */
  function StatusMs(status: string): Option<nat>
  {
    if EndsWith(status, " ms") then ParseDecimal(status[..|status| - 3]) else None
  }

  /** The status names the duration exactly when there is one, and names it
      correctly. */
  lemma {:induction false} PingStatusNamesMs(host: string, dstPort: int, greet: Exchange, connect: Exchange, tls: Exchange, elapsedMs: nat)
    ensures var p := RealPing(host, dstPort, greet, connect, tls, elapsedMs);
      && (EndsWith(p.status, " ms") <==> p.ms >= 0)
      && StatusMs(p.status) == (if p.ms >= 0 then Some(p.ms) else None)
  {
    var p := RealPing(host, dstPort, greet, connect, tls, elapsedMs);
    if p.ms >= 0 {
      var d := Decimal(elapsedMs);
      assert p.status == d + " ms";
      assert p.status[|p.status| - 3..] == " ms";
      assert p.status[..|p.status| - 3] == d;
      DecimalRoundTrip(elapsedMs);
    } else {
      FailureStatusHasNoMs(p.status);
    }
  }

  lemma FailureStatusHasNoMs(s: string)
    requires s in {"SOCKS FAIL", "TIMEOUT", "ERROR"}
    ensures !EndsWith(s, " ms")
  {
    if s == "SOCKS FAIL" {
      assert s[7..] != " ms" by { assert s[7..][0] == 'A'; }
    } else if s == "TIMEOUT" {
      assert s[4..] != " ms" by { assert s[4..][0] == 'O'; }
    } else {
      assert s[2..] != " ms" by { assert s[2..][0] == 'R'; }
    }
  }

  // ------------------------------------------------------------- readiness

  /** One round of `_wait_ready_or_socks`: whether the client had by then
      printed any line containing "ready" in any letter case (the reader
      thread's test), and, if not, what the probe got. */
  datatype Poll = Poll(sawReady: bool, probe: Exchange)

  predicate PollReady(p: Poll) {
    p.sawReady || (p.probe.Received? && ProbeAccepts(p.probe.data))
  }

  /** `_wait_ready_or_socks`, given the rounds that fit before the deadline
      (`ReadyWaitMs(ready_ms)` milliseconds after the wait starts; the
      clock itself is not modelled), each probe sending `Greeting`:
      true at the first round where the client had printed a line containing
      "ready" or the probe was accepted; a probe that raises counts as not ready. */
  function WaitReady(polls: seq<Poll>): (r: bool)
    ensures r <==> exists i :: 0 <= i < |polls| && PollReady(polls[i])
  {
    if |polls| == 0 then false
    else if polls[0].sawReady then true
    else if polls[0].probe.Received? && ProbeAccepts(polls[0].probe.data) then true
    else
      assert forall i :: 1 <= i < |polls| ==> polls[i] == polls[1..][i - 1];
      WaitReady(polls[1..])
  }

  /** `max(0.2, ready_ms / 1000.0)` seconds, in milliseconds. */
  function ReadyWaitMs(readyMs: int): (r: int)
    ensures r >= 200 && r >= readyMs
    ensures r == readyMs || r == 200
  {
    Max(200, readyMs)
  }

  // -------------------------------------------------------------- realtest

  /** The host and port the real test reaches through the tunnel. */
  const TestHost: string := "www.google.com"
  const TestPort: int := 443

  lemma TestHostAscii()
    ensures IsAscii(TestHost) && |TestHost| == 14
  {
  }

  /** The request for the test host: a 14-byte name and port 443. */
  lemma TestRequest()
    ensures ConnectRequest(TestHost, TestPort).Some?
    ensures ParseConnect(ConnectRequest(TestHost, TestPort).value) == Some((CodePoints(TestHost), 443))
  {
    TestHostAscii();
    Utf8OfAscii(TestHost);
    ConnectRoundTrip(TestHost, TestPort);
  }

  /** The (status, ms text) pair `realtest_one` returns. */
  datatype Realtest = Realtest(status: string, msText: string)

  /** `realtest_one(ip, domain, exe, ready_ms, timeout_s)`: `found` says
      whether the client executable could be started, `polls` are the rounds
      of waiting for it that fit in `ReadyWaitMs(ready_ms)`, and the rest is the ping through it. */
  function RealtestOne(found: bool, polls: seq<Poll>, greet: Exchange, connect: Exchange, tls: Exchange, elapsedMs: nat): (r: Realtest)
    ensures !found ==> r == Realtest("SLIPSTREAM NOT FOUND", "-")
    ensures found && !WaitReady(polls) ==> r == Realtest("READY TIMEOUT", "-")
    ensures found && WaitReady(polls) ==>
      var p := RealPing(TestHost, TestPort, greet, connect, tls, elapsedMs);
      r.status == p.status && (r.msText == "-" <==> p.ms < 0)
  {
    if !found then Realtest("SLIPSTREAM NOT FOUND", "-")
    else if !WaitReady(polls) then Realtest("READY TIMEOUT", "-")
    else
      var p := RealPing(TestHost, TestPort, greet, connect, tls, elapsedMs);
      Realtest(p.status, MsLabel(p.ms))
  }

  /** The two halves of a result agree: the ms column is a number exactly
      when the status reports a duration, and it is that duration. */
  lemma RealtestColumnsAgree(found: bool, polls: seq<Poll>, greet: Exchange, connect: Exchange, tls: Exchange, elapsedMs: nat)
    ensures var r := RealtestOne(found, polls, greet, connect, tls, elapsedMs);
      && (r.msText != "-" <==> EndsWith(r.status, " ms"))
      && (r.msText != "-" <==> StatusMs(r.status).Some?)
      && (r.msText != "-" ==> ParseDecimal(r.msText) == StatusMs(r.status))
  {
    if found && WaitReady(polls) {
      PingStatusNamesMs(TestHost, TestPort, greet, connect, tls, elapsedMs);
    } else {
      assert !EndsWith("SLIPSTREAM NOT FOUND", " ms") by { assert "SLIPSTREAM NOT FOUND"[17..][0] == 'U'; }
      assert !EndsWith("READY TIMEOUT", " ms") by { assert "READY TIMEOUT"[10..][0] == 'O'; }
    }
  }

  /** A test that reports a duration went through every stage: the client
      was found and ready, the proxy accepted the greeting and the CONNECT,
      and the TLS exchange completed. */
  lemma RealtestSuccess(found: bool, polls: seq<Poll>, greet: Exchange, connect: Exchange, tls: Exchange, elapsedMs: nat)
    ensures RealtestOne(found, polls, greet, connect, tls, elapsedMs).msText != "-" <==>
      && found && WaitReady(polls)
      && greet.Received? && GreetingAccepted(greet.data)
      && connect.Received? && ConnectSucceeded(connect.data)
      && tls.Received?
    ensures RealtestOne(found, polls, greet, connect, tls, elapsedMs).msText != "-" ==>
      ParseDecimal(RealtestOne(found, polls, greet, connect, tls, elapsedMs).msText) == Some(elapsedMs)
  {
    TestRequest();
  }
}

=== FILE: targets.dfy ===
/** The scanner's targets: how many there are (counted up front, to size
    the progress bar and to end the result loop) and which addresses the
    producer yields, in order, for a target file or a `--targets` list. The
    producer may be told to stop; it then yields a prefix of its full
    output. */
module Targets {
  import opened Basics
  import opened Text
  import opened IPv4
  import opened Tokens

  /** The `use_random` and `random_k` arguments of the count and the
      generators. */
  datatype Mode = Mode(useRandom: bool, k: int)

  /** CIDR blocks are sampled rather than expanded. */
  predicate Sampling(m: Mode) {
    m.useRandom && m.k > 0
  }

  /** The text of an IPv4 address as `str(IPv4Address(...))` writes it. */
  predicate Canonical(x: string) {
    ParseAddress(x).Some? && Format(ParseAddress(x).value) == x
  }

  /** Every word of a list, classified by `_parse_token`. */
  function Parsed(words: seq<string>): (r: seq<Token>)
    ensures |r| == |words|
  {
    seq(|words|, (i: int) requires 0 <= i < |words| => ParseToken(words[i]))
  }

  // ------------------------------------------------------------------ counting

  /** What a block adds to the count: its size, or `min(k, size)` when
      sampling; 0 for text that is not an IPv4 network. */
  function CidrCount(v: string, m: Mode): nat
  {
    match ParseNetwork(v)
    case None => 0
    case Some(net) =>
      var n := Size(net.prefix);
      if Sampling(m) then Min(m.k, n) else n
  }

  /** What one classified token adds to `_count_targets_in_lines`: 1 for an
      address, the block's count for a block, 0 for anything else. */
  function TokenCount(t: Token, m: Mode): nat
  {
    match t
    case Ip(_) => 1
    case Skip => 0
    case Cidr(v) => CidrCount(v, m)
  }

  function CountAll(ts: seq<Token>, m: Mode): nat
  {
    if |ts| == 0 then 0 else TokenCount(ts[0], m) + CountAll(ts[1..], m)
  }

  /** `_count_targets_in_lines(lines, use_random, random_k)`. */
  function CountTargetsInLines(lines: seq<string>, m: Mode): nat
  {
    CountAll(Parsed(CleanTokens(lines)), m)
  }

  // -------------------------------------------------------- what tokens yield

  /** picks is a possible `random.sample` draw for the token, when the token
      makes one. */
  predicate ValidDraw(t: Token, m: Mode, picks: seq<nat>) {
    t.Cidr? && Sampling(m) ==> DrawFor(t.spec, m.k, picks)
  }

  /** One draw per token, each possible for its token. */
  predicate DrawsFor(ts: seq<Token>, m: Mode, draws: seq<seq<nat>>) {
    |draws| == |ts| && forall i :: 0 <= i < |ts| ==> ValidDraw(ts[i], m, draws[i])
  }

  lemma DrawsTail(ts: seq<Token>, m: Mode, draws: seq<seq<nat>>)
    requires |ts| > 0 && DrawsFor(ts, m, draws)
    ensures ValidDraw(ts[0], m, draws[0])
    ensures DrawsFor(ts[1..], m, draws[1..])
  {
    assert ValidDraw(ts[0], m, draws[0]);
    forall i | 0 <= i < |ts| - 1
      ensures ValidDraw(ts[1..][i], m, draws[1..][i])
    {
      assert ValidDraw(ts[i + 1], m, draws[i + 1]);
    }
  }

  /** The addresses a block yields when nothing stops the generator: a
      sample drawn by picks, or every address in order; exactly as many as
      the count says. */
  function CidrTargets(v: string, m: Mode, picks: seq<nat>): (r: seq<string>)
    requires Sampling(m) ==> DrawFor(v, m.k, picks)
    ensures |r| == CidrCount(v, m)
  {
    if Sampling(m) then Sample(v, m.k, picks) else Expand(v)
  }

  /** The addresses one token yields when nothing stops the generator:
      exactly as many as it counts for. */
  function TokenTargets(t: Token, m: Mode, picks: seq<nat>): (r: seq<string>)
    requires ValidDraw(t, m, picks)
    ensures |r| == TokenCount(t, m)
  {
    match t
    case Ip(a) => [a]
    case Cidr(v) => CidrTargets(v, m, picks)
    case Skip => []
  }

  /** What every token yields, token by token. */
  function Blocks(ts: seq<Token>, m: Mode, draws: seq<seq<nat>>): (bs: seq<seq<string>>)
    requires DrawsFor(ts, m, draws)
    ensures |bs| == |ts|
  {
    seq(|ts|, (i: int) requires 0 <= i < |ts| => TokenTargets(ts[i], m, draws[i]))
  }

  /** The blocks one after the other. */
  function Flatten(bs: seq<seq<string>>): seq<string>
  {
    if |bs| == 0 then [] else bs[0] + Flatten(bs[1..])
  }

  /** Count equals yield, token by token: the blocks hold as many targets
      as the tokens count for. */
  lemma {:induction false} BlocksCount(ts: seq<Token>, m: Mode, draws: seq<seq<nat>>)
    requires DrawsFor(ts, m, draws)
    ensures |Flatten(Blocks(ts, m, draws))| == CountAll(ts, m)
    decreases |ts|
  {
    if |ts| > 0 {
      DrawsTail(ts, m, draws);
      var bs := Blocks(ts, m, draws);
      assert bs[1..] == Blocks(ts[1..], m, draws[1..]);
      BlocksCount(ts[1..], m, draws[1..]);
    }
  }

  /** A property of every element of every block holds of every element of
      the flattened list. */
  lemma {:induction false} FlattenAll(bs: seq<seq<string>>, P: string -> bool)
    requires forall i, x :: 0 <= i < |bs| && x in bs[i] ==> P(x)
    ensures forall x :: x in Flatten(bs) ==> P(x)
    decreases |bs|
  {
    if |bs| > 0 {
      assert forall i, x :: 0 <= i < |bs| - 1 && x in bs[1..][i] ==> x in bs[i + 1];
      FlattenAll(bs[1..], P);
    }
  }

  lemma ExpandCanonical(v: string)
    ensures forall x :: x in Expand(v) ==> Canonical(x)
  {
    var r := Expand(v);
    forall x | x in r
      ensures Canonical(x)
    {
      var off :| 0 <= off < |r| && r[off] == x;
      FormatParse(x);
    }
  }

  /** Every address a block yields, in full or sampled, is canonical IPv4
      text. */
  lemma CidrTargetsCanonical(v: string, m: Mode, picks: seq<nat>)
    requires Sampling(m) ==> DrawFor(v, m.k, picks)
    ensures forall x :: x in CidrTargets(v, m, picks) ==> Canonical(x)
  {
    ExpandCanonical(v);
  }

  lemma IpTargetsCanonical(t: Token, m: Mode, picks: seq<nat>)
    requires t.Ip? && Canonical(t.addr)
    ensures forall x :: x in TokenTargets(t, m, picks) ==> Canonical(x)
  {
    assert TokenTargets(t, m, picks) == [t.addr];
  }

  lemma CidrTokenCanonical(w: string, m: Mode, picks: seq<nat>)
    requires ParseToken(w).Cidr? && ValidDraw(ParseToken(w), m, picks)
    ensures forall x :: x in TokenTargets(ParseToken(w), m, picks) ==> Canonical(x)
  {
    CidrTargetsCanonical(ParseToken(w).spec, m, picks);
  }

  /** Every address a word's token yields is canonical IPv4 text. */
  lemma TokenTargetsCanonical(w: string, m: Mode, picks: seq<nat>)
    requires ValidDraw(ParseToken(w), m, picks)
    ensures forall x :: x in TokenTargets(ParseToken(w), m, picks) ==> Canonical(x)
  {
    if ParseToken(w).Ip? {
      IpTokenCanonical(w);
      IpTargetsCanonical(ParseToken(w), m, picks);
    } else if ParseToken(w).Cidr? {
      CidrTokenCanonical(w, m, picks);
    }
  }

  lemma BlocksCanonical(words: seq<string>, m: Mode, draws: seq<seq<nat>>)
    requires DrawsFor(Parsed(words), m, draws)
    ensures forall x :: x in Flatten(Blocks(Parsed(words), m, draws)) ==> Canonical(x)
  {
    var ts := Parsed(words);
    var bs := Blocks(ts, m, draws);
    forall i, x | 0 <= i < |bs| && x in bs[i]
      ensures Canonical(x)
    {
      assert ValidDraw(ts[i], m, draws[i]);
      TokenTargetsCanonical(words[i], m, draws[i]);
    }
    FlattenAll(bs, x => Canonical(x));
  }

  // ---------------------------------------------------------------- stopping

  /** `stop_evt.is_set()` once `done` targets have been yielded, for a stop
      event that becomes visible after `stop` targets (never, for None). */
  predicate Stopped(stop: Option<nat>, done: nat) {
    stop.Some? && done >= stop.value
  }

  /** How many of n further targets a generator that has already yielded
      `done` may still yield. */
  function Allowance(stop: Option<nat>, done: nat, n: nat): (r: nat)
    ensures r <= n
  {
    match stop
    case None => n
    case Some(s) => if done >= s then 0 else Min(n, s - done)
  }

  /** Yielding xs one at a time, checking the stop event before each. */
  function EmitChecked(xs: seq<string>, stop: Option<nat>, done: nat): seq<string>
    decreases |xs|
  {
    if |xs| == 0 || Stopped(stop, done) then []
    else [xs[0]] + EmitChecked(xs[1..], stop, done + 1)
  }

  /** A checked emission yields exactly the allowed prefix. */
  lemma {:induction false} EmitCheckedPrefix(xs: seq<string>, stop: Option<nat>, done: nat)
    ensures EmitChecked(xs, stop, done) == xs[..Allowance(stop, done, |xs|)]
    decreases |xs|
  {
    if |xs| > 0 && !Stopped(stop, done) {
      EmitCheckedPrefix(xs[1..], stop, done + 1);
      assert xs[..Allowance(stop, done, |xs|)] == [xs[0]] + xs[1..][..Allowance(stop, done + 1, |xs| - 1)];
    }
  }

  /** bs[i] is what token i yields: its address, or nothing for a skipped
      word. */
  predicate BlocksFit(ts: seq<Token>, bs: seq<seq<string>>) {
    && |bs| == |ts|
    && forall i :: 0 <= i < |ts| ==>
         && (ts[i].Ip? ==> bs[i] == [ts[i].addr])
         && (ts[i].Skip? ==> bs[i] == [])
  }

  /** The shared body of `_iter_targets_file` and `_iter_targets_tokens`
      after `done` targets, with the sampled or expanded addresses of every
      block given in bs: check the stop event before each token; yield an
      address unchecked; yield a block's addresses checking before every one,
      and return at once if stopped inside it. */
  function Produce(ts: seq<Token>, bs: seq<seq<string>>, stop: Option<nat>, done: nat): seq<string>
    requires |bs| == |ts|
    decreases |ts|
  {
    if |ts| == 0 || Stopped(stop, done) then []
    else
      match ts[0]
      case Skip => Produce(ts[1..], bs[1..], stop, done)
      case Ip(a) => [a] + Produce(ts[1..], bs[1..], stop, done + 1)
      case Cidr(_) =>
        var out := EmitChecked(bs[0], stop, done);
        if |out| < |bs[0]| then out
        else out + Produce(ts[1..], bs[1..], stop, done + |bs[0]|)
  }

  /** The allowance after an unchecked address is the rest of the allowance
      before it. */
  lemma AllowanceAfterAddress(a: string, tail: seq<string>, rest: seq<string>, stop: Option<nat>, done: nat)
    requires !Stopped(stop, done)
    requires rest == tail[..Allowance(stop, done + 1, |tail|)]
    ensures [a] + rest == ([a] + tail)[..Allowance(stop, done, 1 + |tail|)]
  {
    var all := [a] + tail;
    assert all[..Allowance(stop, done, |all|)] == [a] + tail[..Allowance(stop, done + 1, |tail|)];
  }

  /** A block cut short ends the output; a block emitted in full is followed
      by the allowance that is left. */
  lemma AllowanceAfterBlock(xs: seq<string>, tail: seq<string>, out: seq<string>, rest: seq<string>, stop: Option<nat>, done: nat)
    requires out == xs[..Allowance(stop, done, |xs|)]
    requires |out| == |xs| ==> rest == tail[..Allowance(stop, done + |xs|, |tail|)]
    ensures (if |out| < |xs| then out else out + rest) == (xs + tail)[..Allowance(stop, done, |xs| + |tail|)]
  {
    var all := xs + tail;
    if |out| < |xs| {
      assert all[..Allowance(stop, done, |all|)] == xs[..Allowance(stop, done, |xs|)];
    } else {
      assert out == xs;
      assert all[..Allowance(stop, done, |all|)] == xs + tail[..Allowance(stop, done + |xs|, |tail|)];
    }
  }

  /** Whatever the stop event does, the generator yields a prefix of the full
      target list: all of it that the stop point allows. */
  lemma {:induction false} ProducePrefix(ts: seq<Token>, bs: seq<seq<string>>, stop: Option<nat>, done: nat)
    requires BlocksFit(ts, bs)
    ensures Produce(ts, bs, stop, done) == Flatten(bs)[..Allowance(stop, done, |Flatten(bs)|)]
    decreases |ts|
  {
    if |ts| > 0 && !Stopped(stop, done) {
      var tail := Flatten(bs[1..]);
      assert Flatten(bs) == bs[0] + tail;
      assert BlocksFit(ts[1..], bs[1..]) by {
        assert forall i :: 0 <= i < |ts| - 1 ==> ts[1..][i] == ts[i + 1] && bs[1..][i] == bs[i + 1];
      }
      assert ts[0].Ip? ==> bs[0] == [ts[0].addr];
      match ts[0]
      case Skip =>
        ProducePrefix(ts[1..], bs[1..], stop, done);
      case Ip(a) =>
        ProducePrefix(ts[1..], bs[1..], stop, done + 1);
        AllowanceAfterAddress(a, tail, Produce(ts[1..], bs[1..], stop, done + 1), stop, done);
      case Cidr(_) =>
        EmitCheckedPrefix(bs[0], stop, done);
        ProducePrefix(ts[1..], bs[1..], stop, done + |bs[0]|);
        AllowanceAfterBlock(bs[0], tail, EmitChecked(bs[0], stop, done), Produce(ts[1..], bs[1..], stop, done + |bs[0]|), stop, done);
    }
  }

  lemma BlocksOfTokensFit(ts: seq<Token>, m: Mode, draws: seq<seq<nat>>)
    requires DrawsFor(ts, m, draws)
    ensures BlocksFit(ts, Blocks(ts, m, draws))
  {
  }

  /** `_iter_targets_file` / `_iter_targets_tokens` over the given words,
      each classified as it is reached. */
  function TargetStream(words: seq<string>, m: Mode, draws: seq<seq<nat>>, stop: Option<nat>): seq<string>
    requires DrawsFor(Parsed(words), m, draws)
  {
    var ts := Parsed(words);
    Produce(ts, Blocks(ts, m, draws), stop, 0)
  }

  /** The stream is the allowed prefix of all the blocks, one after the
      other. */
  lemma StreamIsPrefix(words: seq<string>, m: Mode, draws: seq<seq<nat>>, stop: Option<nat>)
    requires DrawsFor(Parsed(words), m, draws)
    ensures var all := Flatten(Blocks(Parsed(words), m, draws));
      TargetStream(words, m, draws, stop) == all[..Allowance(stop, 0, |all|)]
  {
    var ts := Parsed(words);
    BlocksOfTokensFit(ts, m, draws);
    ProducePrefix(ts, Blocks(ts, m, draws), stop, 0);
  }

  /** Left alone, the stream is all the blocks. */
  lemma StreamUnstopped(words: seq<string>, m: Mode, draws: seq<seq<nat>>)
    requires DrawsFor(Parsed(words), m, draws)
    ensures TargetStream(words, m, draws, None) == Flatten(Blocks(Parsed(words), m, draws))
  {
    var all := Flatten(Blocks(Parsed(words), m, draws));
    StreamIsPrefix(words, m, draws, None);
    assert all[..|all|] == all;
  }

  /** Count equals yield: left alone, the generator yields exactly as many
      targets as the words count for, every one canonical IPv4 text; told to
      stop after s, it yields the first min(s, count) of them. */
  lemma StreamMatchesCount(words: seq<string>, m: Mode, draws: seq<seq<nat>>, s: nat)
    requires DrawsFor(Parsed(words), m, draws)
    ensures |TargetStream(words, m, draws, None)| == CountAll(Parsed(words), m)
    ensures forall x :: x in TargetStream(words, m, draws, None) ==> Canonical(x)
    ensures TargetStream(words, m, draws, Some(s))
         == TargetStream(words, m, draws, None)[..Min(s, CountAll(Parsed(words), m))]
  {
    StreamUnstopped(words, m, draws);
    BlocksCount(Parsed(words), m, draws);
    BlocksCanonical(words, m, draws);
    StreamIsPrefix(words, m, draws, Some(s));
  }

  // ----------------------------------------------------------------- sources

  /** Where `cmd_scan` reads its targets: the lines of `--file`, or the words
      given to `--targets`. */
  datatype Source = FromFile(lines: seq<string>) | FromList(args: seq<string>)

  /** The text the count runs over: the file's lines, or each argument read
      as a line of its own. */
  function CountedLines(src: Source): seq<string>
  {
    match src
    case FromFile(lines) => lines
    case FromList(args) => args
  }

  /** `use_random` and `random_k` after the rule that a target file holding a
      single plain address is expanded in full; the rule looks at files
      only. */
  function ScanMode(src: Source, k: int): (m: Mode)
    ensures Sampling(m) <==> k > 0 && !(src.FromFile? && HasPlainIp(src.lines))
    ensures Sampling(m) ==> m.k == k
    ensures !Sampling(m) ==> m.k <= 0
  {
    if src.FromFile? && k > 0 && HasPlainIp(src.lines) then Mode(false, 0)
    else Mode(k > 0, k)
  }

  /** `total` in `cmd_scan`. */
  function ScanTotal(src: Source, k: int): nat
  {
    CountTargetsInLines(CountedLines(src), ScanMode(src, k))
  }

  /** The tokens the producer iterates, as written: a file is cleaned, but
      `--targets` words are parsed raw by `_iter_targets_tokens`. */
  function ProducedTokensAsWritten(src: Source): seq<string>
  {
    match src
    case FromFile(lines) => CleanTokens(lines)
    case FromList(args) => args
  }

  /** The tokens the producer should iterate so that it yields what was
      counted: the cleaned words of either source. */
  function ProducedTokens(src: Source): seq<string>
  {
    CleanTokens(CountedLines(src))
  }

  /** The producer of `cmd_scan` as written. */
  function ScanStreamAsWritten(src: Source, k: int, draws: seq<seq<nat>>, stop: Option<nat>): seq<string>
    requires DrawsFor(Parsed(ProducedTokensAsWritten(src)), ScanMode(src, k), draws)
  {
    TargetStream(ProducedTokensAsWritten(src), ScanMode(src, k), draws, stop)
  }

  /** The producer with `--targets` words cleaned first. */
  function ScanStream(src: Source, k: int, draws: seq<seq<nat>>, stop: Option<nat>): seq<string>
    requires DrawsFor(Parsed(ProducedTokens(src)), ScanMode(src, k), draws)
  {
    TargetStream(ProducedTokens(src), ScanMode(src, k), draws, stop)
  }

  /** With cleaning on both sides, the producer yields exactly `total`
      targets, so the result loop `while done < total` ends once every
      target has been scanned. */
  lemma ScanStreamYieldsTotal(src: Source, k: int, draws: seq<seq<nat>>)
    requires DrawsFor(Parsed(ProducedTokens(src)), ScanMode(src, k), draws)
    ensures |ScanStream(src, k, draws, None)| == ScanTotal(src, k)
  {
    StreamMatchesCount(ProducedTokens(src), ScanMode(src, k), draws, 0);
  }

  /** For a target file the producer as written already does this. */
  lemma FileStreamYieldsTotal(lines: seq<string>, k: int, draws: seq<seq<nat>>)
    requires DrawsFor(Parsed(CleanTokens(lines)), ScanMode(FromFile(lines), k), draws)
    ensures ScanStreamAsWritten(FromFile(lines), k, draws, None) == ScanStream(FromFile(lines), k, draws, None)
    ensures |ScanStreamAsWritten(FromFile(lines), k, draws, None)| == ScanTotal(FromFile(lines), k)
  {
    ScanStreamYieldsTotal(FromFile(lines), k, draws);
  }

  /** For `--targets` words that are already clean the two producers agree. */
  lemma CleanListAgrees(args: seq<string>, k: int, draws: seq<seq<nat>>, stop: Option<nat>)
    requires forall t :: t in args ==> CleanToken(t)
    requires DrawsFor(Parsed(args), ScanMode(FromList(args), k), draws)
    ensures ProducedTokens(FromList(args)) == args
    ensures ScanStreamAsWritten(FromList(args), k, draws, stop) == ScanStream(FromList(args), k, draws, stop)
  {
    CleanTokensOfClean(args);
  }

  /** An address text holds only digits and dots. */
  lemma AddressTextChars(s: string)
    requires ParseAddress(s).Some?
    ensures forall c :: c in s ==> IsDigit(c) || c == '.'
  {
    FormatParse(s);
    FormatChars(ParseAddress(s).value);
  }

  /** The comma after a word becomes a blank. */
  lemma SeparateTrailingComma(f: string)
    requires ',' !in f && ';' !in f
    ensures Separate(f + ",") == f + " "
  {
  }

  /** A word followed by a comma, read as a line, is a plain line. */
  lemma TrailingCommaLine(f: string)
    requires |f| > 0 && NoSpace(f) && '/' !in f && '#' !in f
    ensures var w := f + ","; |w| > 0 && Trimmed(w) && NoDoubleSlash(w) && '#' !in w
  {
    var w := f + ",";
    assert w[|w| - 1] == ',';
    assert w[0] == f[0] && f[0] in f;
    assert forall i :: 0 <= i < |w| - 1 ==> w[i] == f[i];
  }

  /** A word followed by a comma cleans to the word alone. */
  lemma CommaCleaned(f: string)
    requires |f| > 0 && NoSpace(f) && '/' !in f && '#' !in f && ',' !in f && ';' !in f
    ensures CleanTokens([f + ","]) == [f]
  {
    var w := f + ",";
    TrailingCommaLine(f);
    CleanLinePlainComma(w);
    SeparateTrailingComma(f);
    SplitWsTrailingSpace(f);
    assert CleanTokens([w]) == CleanLine(w) + CleanTokens([]);
  }

  /** A whitespace-free word that is not a block and holds a comma is not an
      address: it is skipped. */
  lemma CommaSkipped(w: string)
    requires NoSpace(w) && '/' !in w && ':' !in w && ',' in w
    ensures ParseToken(w) == Skip
  {
    assert Strip(w) == w;
    assert StripPort(w) == w;
    if ParseAddress(w).Some? {
      AddressTextChars(w);
      assert false;
    }
  }

  /** Appending a comma adds no blank, slash or colon. */
  lemma CommaAppended(f: string)
    requires NoSpace(f) && '/' !in f && ':' !in f
    ensures var w := f + ","; NoSpace(w) && '/' !in w && ':' !in w && ',' in w
  {
    var w := f + ",";
    assert w[|f|] == ',';
  }

  /** One token counts for what it counts alone. */
  lemma CountSingle(t: Token, m: Mode)
    ensures CountAll([t], m) == TokenCount(t, m)
  {
    assert [t][1..] == [];
  }

  /** A lone skipped token yields nothing. */
  lemma ProduceSkipOnly(ts: seq<Token>, bs: seq<seq<string>>, stop: Option<nat>, done: nat)
    requires ts == [Skip] && |bs| == 1
    ensures Produce(ts, bs, stop, done) == []
  {
    assert ts[1..] == [];
    if !Stopped(stop, done) {
      assert Produce(ts, bs, stop, done) == Produce(ts[1..], bs[1..], stop, done);
    }
  }

  /** A list whose one word is skipped yields nothing. */
  lemma SkippedWordYieldsNothing(w: string, m: Mode, draws: seq<seq<nat>>, stop: Option<nat>)
    requires ParseToken(w) == Skip && DrawsFor(Parsed([w]), m, draws)
    ensures TargetStream([w], m, draws, stop) == []
  {
    var ts := Parsed([w]);
    assert ts == [Skip];
    ProduceSkipOnly(ts, Blocks(ts, m, draws), stop, 0);
  }

  /** A single address counts once. */
  lemma OneAddressCountsOnce(ts: seq<Token>, m: Mode)
    requires |ts| == 1 && ts[0].Ip?
    ensures CountAll(ts, m) == 1
  {
    assert ts[1..] == [];
  }

  /** Text of digits and dots has no blank, slash, colon, hash, comma or
      semicolon. */
  lemma DigitsAndDots(f: string)
    requires forall c :: c in f ==> IsDigit(c) || c == '.'
    ensures NoSpace(f) && '/' !in f && ':' !in f && '#' !in f && ',' !in f && ';' !in f
  {
    assert forall i :: 0 <= i < |f| ==> f[i] in f;
  }

  /** An address word with a comma after it counts once. */
  lemma TrailingCommaCounted(f: string, m: Mode)
    requires |f| > 0 && ParseToken(f).Ip?
    requires NoSpace(f) && '/' !in f && '#' !in f && ',' !in f && ';' !in f
    ensures CountTargetsInLines([f + ","], m) == 1
  {
    CommaCleaned(f);
    var ts := Parsed([f]);
    assert ts[0] == ParseToken(f);
    OneAddressCountsOnce(ts, m);
  }

  /** The same word, parsed raw, yields nothing. */
  lemma TrailingCommaYieldsNothing(f: string, m: Mode)
    requires NoSpace(f) && '/' !in f && ':' !in f
    ensures DrawsFor(Parsed([f + ","]), m, [[]])
    ensures TargetStream([f + ","], m, [[]], None) == []
  {
    var w := f + ",";
    CommaAppended(f);
    CommaSkipped(w);
    assert Parsed([w]) == [Skip];
    SkippedWordYieldsNothing(w, m, [[]], None);
  }

  /** The word "a.b.c.d," given to `--targets`: counted once by
      `_count_targets_in_lines`, because the count cleans the comma away, but
      yielding nothing from `_iter_targets_tokens`, because the producer
      parses the raw word. The result loop `while done < total` then waits
      for a result that never comes. */
  lemma TrailingCommaMismatch(a: Address, m: Mode)
    ensures CountTargetsInLines([Format(a) + ","], m) == 1
    ensures DrawsFor(Parsed([Format(a) + ","]), m, [[]])
    ensures TargetStream([Format(a) + ","], m, [[]], None) == []
  {
    FormatChars(a);
    ParseTokenAddress(a, "");
    DigitsAndDots(Format(a));
    TrailingCommaCounted(Format(a), m);
    TrailingCommaYieldsNothing(Format(a), m);
  }
}

=== FILE: text.dfy ===
/** The slice of Python's `str` behaviour the scanner relies on: whitespace
    as `str.isspace()` defines it, `strip()`, `split()` with and without a
    separator, `split(sep, 1)[0]`, `startswith`/`endswith`, and the decimal
    rendering `str(n)` of non-negative integers together with its inverse. */
module Text {
  import opened Basics

  /** Every character is ASCII (code point below 128). */
  predicate IsAscii(s: string) {
    forall i :: 0 <= i < |s| ==> s[i] as int < 128
  }

  // ---------------------------------------------------------------- whitespace

  /** Python's `str.isspace()` on one character: the characters `strip()`
      removes and `split()` splits on. */
  predicate IsSpace(c: char) {
    || ('\t' <= c <= '\r')
    || ('\U{1C}' <= c <= '\U{1F}')
    || c == ' '
    || c == '\U{85}'
    || c == '\U{A0}'
    || c == '\U{1680}'
    || ('\U{2000}' <= c <= '\U{200A}')
    || c == '\U{2028}'
    || c == '\U{2029}'
    || c == '\U{202F}'
    || c == '\U{205F}'
    || c == '\U{3000}'
  }

  predicate NoSpace(s: string) {
    forall i :: 0 <= i < |s| ==> !IsSpace(s[i])
  }

  /** Neither end of s is whitespace. */
  predicate Trimmed(s: string) {
    s == [] || (!IsSpace(s[0]) && !IsSpace(s[|s| - 1]))
  }

  /** `s.lstrip()`: the longest suffix of s that does not start with whitespace. */
  function StripLeft(s: string): (r: string)
    ensures |r| <= |s| && r == s[|s| - |r|..]
    ensures r == [] || !IsSpace(r[0])
    ensures forall i :: 0 <= i < |s| - |r| ==> IsSpace(s[i])
    decreases |s|
  {
    if |s| > 0 && IsSpace(s[0]) then StripLeft(s[1..]) else s
  }

  /** `s.rstrip()`: the longest prefix of s that does not end with whitespace. */
  function StripRight(s: string): (r: string)
    ensures |r| <= |s| && r == s[..|r|]
    ensures r == [] || !IsSpace(r[|r| - 1])
    ensures forall i :: |r| <= i < |s| ==> IsSpace(s[i])
    decreases |s|
  {
    if |s| > 0 && IsSpace(s[|s| - 1]) then StripRight(s[..|s| - 1]) else s
  }

  /** `s.strip()`: s without whitespace at either end; nothing but
      whitespace is removed and the characters kept are s's own. */
  function Strip(s: string): (r: string)
    ensures Trimmed(r)
    ensures forall c :: c in r ==> c in s
    ensures Trimmed(s) ==> r == s
    ensures NoSpace(s) ==> r == s
  {
    var l := StripLeft(s);
    var r := StripRight(l);
    assert forall c :: c in r ==> c in l;
    assert forall c :: c in l ==> c in s;
    assert |r| > 0 ==> r[0] == l[0];
    r
  }

  /** Stripping twice is stripping once. */
  lemma StripIdempotent(s: string)
    ensures Strip(Strip(s)) == Strip(s)
  {
  }

  /** `s.strip(c)`: s without leading and trailing occurrences of c. */
  function TrimChar(s: string, c: char): (r: string)
    ensures r == [] || (r[0] != c && r[|r| - 1] != c)
    ensures forall x :: x in r ==> x in s
    decreases |s|
  {
    if |s| > 0 && s[0] == c then TrimChar(s[1..], c)
    else if |s| > 0 && s[|s| - 1] == c then TrimChar(s[..|s| - 1], c)
    else s
  }

  // ----------------------------------------------------------------- splitting

  /** The longest prefix of s without whitespace. */
  function Word(s: string): (r: string)
    ensures |r| <= |s| && r == s[..|r|] && NoSpace(r)
    ensures |r| == |s| || IsSpace(s[|r|])
    decreases |s|
  {
    if |s| == 0 || IsSpace(s[0]) then [] else [s[0]] + Word(s[1..])
  }

  /** `s.split()`: the maximal runs of non-whitespace characters, in order. */
  function SplitWs(s: string): (r: seq<string>)
    ensures forall t :: t in r ==> |t| > 0 && NoSpace(t)
    decreases |s|
  {
    var u := StripLeft(s);
    if |u| == 0 then []
    else
      var w := Word(u);
      [w] + SplitWs(u[|w|..])
  }

  /** ts joined with sep between consecutive elements (`sep.join(ts)`). */
  function JoinWith(ts: seq<string>, sep: string): string
    decreases |ts|
  {
    if |ts| == 0 then []
    else if |ts| == 1 then ts[0]
    else ts[0] + sep + JoinWith(ts[1..], sep)
  }

  lemma {:induction false} WordOfJoin(t: string, x: string)
    requires NoSpace(t)
    requires x == [] || IsSpace(x[0])
    ensures Word(t + x) == t
    decreases |t|
  {
    if |t| > 0 {
      assert (t + x)[1..] == t[1..] + x;
      WordOfJoin(t[1..], x);
    } else {
      assert t + x == x;
    }
  }

  /** A word at the front of a string comes out first. */
  lemma SplitWsFront(t: string, rest: string)
    requires |t| > 0 && NoSpace(t)
    requires rest == [] || IsSpace(rest[0])
    ensures SplitWs(t + rest) == [t] + SplitWs(rest)
  {
    var j := t + rest;
    assert j[0] == t[0];
    assert StripLeft(j) == j;
    WordOfJoin(t, rest);
    assert j[|t|..] == rest;
  }

  /** Leading whitespace does not change the split. */
  lemma SplitWsSkipSpace(x: string)
    ensures SplitWs(" " + x) == SplitWs(x)
  {
    assert (" " + x)[1..] == x;
    assert StripLeft(" " + x) == StripLeft(x);
  }

  /** A single word splits into itself. */
  lemma SplitWsWord(t: string)
    requires |t| > 0 && NoSpace(t)
    ensures SplitWs(t) == [t]
  {
    SplitWsFront(t, []);
    assert t + [] == t;
  }

  /** A word followed by a blank comes out first, the blank is dropped. */
  lemma SplitWsWordSpace(t: string, rest: string)
    requires |t| > 0 && NoSpace(t)
    ensures SplitWs(t + " " + rest) == [t] + SplitWs(rest)
  {
    assert t + " " + rest == t + (" " + rest);
    SplitWsFront(t, " " + rest);
    SplitWsSkipSpace(rest);
  }

  /** A word followed by one blank is that word alone. */
  lemma SplitWsTrailingSpace(t: string)
    requires |t| > 0 && NoSpace(t)
    ensures SplitWs(t + " ") == [t]
  {
    SplitWsFront(t, " ");
    assert StripLeft(" ") == [] by {
      assert IsSpace(" "[0]) && " "[1..] == [];
    }
  }

  /** Splitting a space-joined list of non-empty, whitespace-free words gives
      the words back: `split()` inverts `" ".join`. */
  lemma {:induction false} SplitWsJoin(ts: seq<string>)
    requires forall t :: t in ts ==> |t| > 0 && NoSpace(t)
    ensures SplitWs(JoinWith(ts, " ")) == ts
    decreases |ts|
  {
    if |ts| == 1 {
      assert ts[0] in ts;
      SplitWsWord(ts[0]);
    } else if |ts| > 1 {
      var t, tail := ts[0], ts[1..];
      assert ts == [t] + tail;
      assert t in ts;
      assert forall x :: x in tail ==> x in ts;
      var j1 := JoinWith(tail, " ");
      assert JoinWith(ts, " ") == t + " " + j1;
      SplitWsWordSpace(t, j1);
      SplitWsJoin(tail);
    }
  }

  /** `s.split(c)`: the pieces of s between occurrences of c; there is always
      one more piece than there are occurrences. */
  function SplitOn(s: string, c: char): (r: seq<string>)
    ensures |r| >= 1
    ensures forall p :: p in r ==> c !in p
    decreases |s|
  {
    if |s| == 0 then [""]
    else
      var rest := SplitOn(s[1..], c);
      if s[0] == c then [""] + rest
      else [[s[0]] + rest[0]] + rest[1..]
  }

  lemma JoinCons(a: string, tail: seq<string>, sep: string)
    requires |tail| > 0
    ensures JoinWith([a] + tail, sep) == a + sep + JoinWith(tail, sep)
  {
    assert ([a] + tail)[1..] == tail;
  }

  /** Joining the pieces of a split with the separator restores the string. */
  lemma {:induction false} JoinSplitOn(s: string, c: char)
    ensures JoinWith(SplitOn(s, c), [c]) == s
    decreases |s|
  {
    if |s| > 0 {
      var rest := SplitOn(s[1..], c);
      JoinSplitOn(s[1..], c);
      if s[0] == c {
        JoinCons("", rest, [c]);
        assert [c] + s[1..] == s;
      } else {
        var head := [s[0]] + rest[0];
        if |rest| == 1 {
          assert [head] + rest[1..] == [head];
          assert [s[0]] + s[1..] == s;
        } else {
          JoinCons(head, rest[1..], [c]);
          JoinCons(rest[0], rest[1..], [c]);
          assert [rest[0]] + rest[1..] == rest;
          assert [s[0]] + s[1..] == s;
        }
      }
    }
  }

  lemma {:induction false} SplitOnNoSep(s: string, c: char)
    requires c !in s
    ensures SplitOn(s, c) == [s]
    decreases |s|
  {
    if |s| > 0 {
      SplitOnNoSep(s[1..], c);
      assert [s[0]] + s[1..] == s;
    }
  }

  /** Splitting `a + c + b` where a has no c gives a followed by b's pieces. */
  lemma {:induction false} SplitOnCons(a: string, c: char, b: string)
    requires c !in a
    ensures SplitOn(a + [c] + b, c) == [a] + SplitOn(b, c)
    decreases |a|
  {
    var s := a + [c] + b;
    if |a| == 0 {
      assert s[1..] == b;
    } else {
      assert s[1..] == a[1..] + [c] + b;
      SplitOnCons(a[1..], c, b);
      assert [a[0]] + a[1..] == a;
    }
  }

  /** Splitting a c-joined list of pieces without c gives the pieces back. */
  lemma {:induction false} SplitOnJoin(ps: seq<string>, c: char)
    requires |ps| >= 1
    requires forall p :: p in ps ==> c !in p
    ensures SplitOn(JoinWith(ps, [c]), c) == ps
    decreases |ps|
  {
    if |ps| == 1 {
      SplitOnNoSep(ps[0], c);
    } else {
      assert ps[0] in ps;
      SplitOnJoin(ps[1..], c);
      SplitOnCons(ps[0], c, JoinWith(ps[1..], [c]));
      assert [ps[0]] + ps[1..] == ps;
    }
  }

  // ------------------------------------------------------- prefixes and cutting

  predicate StartsWith(s: string, p: string) {
    |p| <= |s| && s[..|p|] == p
  }

  predicate EndsWith(s: string, p: string) {
    |p| <= |s| && s[|s| - |p|..] == p
  }

  /** `s.split(c, 1)[0]`: the part of s before the first c (all of s if none). */
  function BeforeChar(s: string, c: char): (r: string)
    ensures |r| <= |s| && r == s[..|r|] && c !in r
    ensures |r| < |s| ==> s[|r|] == c
    decreases |s|
  {
    if |s| == 0 || s[0] == c then [] else [s[0]] + BeforeChar(s[1..], c)
  }

  /** Cutting `a + c + b` at its first c gives a when a has no c. */
  lemma {:induction false} BeforeCharConcat(a: string, c: char, b: string)
    requires c !in a
    ensures BeforeChar(a + [c] + b, c) == a
    decreases |a|
  {
    if |a| > 0 {
      assert (a + [c] + b)[1..] == a[1..] + [c] + b;
      BeforeCharConcat(a[1..], c, b);
      assert [a[0]] + a[1..] == a;
    }
  }

  /** Cutting `a + b` at its first c, when a has none, cuts b. */
  lemma {:induction false} BeforeCharAppend(a: string, b: string, c: char)
    requires c !in a
    ensures BeforeChar(a + b, c) == a + BeforeChar(b, c)
    decreases |a|
  {
    if |a| > 0 {
      assert (a + b)[1..] == a[1..] + b;
      BeforeCharAppend(a[1..], b, c);
      assert [a[0]] + a[1..] == a;
    } else {
      assert a + b == b;
    }
  }

  /** s contains no two adjacent slashes. */
  predicate NoDoubleSlash(s: string) {
    forall i :: 0 <= i < |s| - 1 ==> !(s[i] == '/' && s[i + 1] == '/')
  }

  /** `s.split("//", 1)[0]`: the part of s before the first "//". */
  function BeforeDoubleSlash(s: string): (r: string)
    ensures |r| <= |s| && r == s[..|r|]
    ensures forall i :: 0 <= i < |r| && i + 1 < |s| ==> !(s[i] == '/' && s[i + 1] == '/')
    ensures NoDoubleSlash(r)
    ensures |r| < |s| ==> |r| + 1 < |s| && s[|r|] == '/' && s[|r| + 1] == '/'
    decreases |s|
  {
    if |s| < 2 then s
    else if s[0] == '/' && s[1] == '/' then []
    else [s[0]] + BeforeDoubleSlash(s[1..])
  }

  /** Cutting `a + "//" + b` at its first "//" gives a, when a has no "//"
      and does not end in '/'. */
  lemma {:induction false} BeforeDoubleSlashConcat(a: string, b: string)
    requires NoDoubleSlash(a) && (a == [] || a[|a| - 1] != '/')
    ensures BeforeDoubleSlash(a + "//" + b) == a
    decreases |a|
  {
    if |a| > 0 {
      var s := a + "//" + b;
      if |a| >= 2 {
        assert !(a[0] == '/' && a[1] == '/');
      }
      assert !(s[0] == '/' && s[1] == '/');
      assert s[1..] == a[1..] + "//" + b;
      NoDoubleSlashSlice(a, 1, |a|);
      BeforeDoubleSlashConcat(a[1..], b);
      assert [a[0]] + a[1..] == a;
    }
  }

  /** A word followed by one blank: no "//" is made, and stripping gives the
      word back. */
  lemma WordThenSpace(j: string)
    requires |j| > 0 && Trimmed(j) && NoDoubleSlash(j)
    ensures NoDoubleSlash(j + " ") && Strip(j + " ") == j
  {
    var s := j + " ";
    assert StripLeft(s) == s;
    assert s[..|s| - 1] == j;
    assert StripRight(s) == StripRight(j);
  }

  /** A slice of a string without "//" has none either. */
  lemma NoDoubleSlashSlice(s: string, i: nat, j: nat)
    requires i <= j <= |s| && NoDoubleSlash(s)
    ensures NoDoubleSlash(s[i..j])
  {
    var t := s[i..j];
    forall k | 0 <= k < |t| - 1
      ensures !(t[k] == '/' && t[k + 1] == '/')
    {
      assert t[k] == s[i + k] && t[k + 1] == s[i + k + 1];
    }
  }

  /** The words `split()` returns hold only characters of its input. */
  lemma {:induction false} SplitWsChars(s: string)
    ensures forall t, c :: t in SplitWs(s) && c in t ==> c in s
    decreases |s|
  {
    var u := StripLeft(s);
    if |u| > 0 {
      var w := Word(u);
      var rest := u[|w|..];
      SplitWsChars(rest);
      assert SplitWs(s) == [w] + SplitWs(rest);
      forall t, c | t in SplitWs(s) && c in t
        ensures c in s
      {
        if t == w {
          assert c in u;
        } else {
          assert t in SplitWs(rest);
          assert c in rest;
          assert c in u;
        }
      }
    }
  }

  /** The words `split()` returns contain "//" only if its input does. */
  lemma {:induction false} SplitWsNoDoubleSlash(s: string)
    requires NoDoubleSlash(s)
    ensures forall t :: t in SplitWs(s) ==> NoDoubleSlash(t)
    decreases |s|
  {
    var u := StripLeft(s);
    if |u| > 0 {
      var w := Word(u);
      var rest := u[|w|..];
      NoDoubleSlashSlice(s, |s| - |u|, |s|);
      NoDoubleSlashSlice(u, 0, |w|);
      NoDoubleSlashSlice(u, |w|, |u|);
      SplitWsNoDoubleSlash(rest);
      assert SplitWs(s) == [w] + SplitWs(rest);
    }
  }

  /** A property every character of the separator and of every piece has,
      every character of the joined string has. */
  lemma {:induction false} JoinChars(ts: seq<string>, sep: string, P: char -> bool)
    requires forall c :: c in sep ==> P(c)
    requires forall t, c :: t in ts && c in t ==> P(c)
    ensures forall c :: c in JoinWith(ts, sep) ==> P(c)
    decreases |ts|
  {
    if |ts| > 1 {
      assert ts[0] in ts;
      assert forall t :: t in ts[1..] ==> t in ts;
      JoinChars(ts[1..], sep, P);
    } else if |ts| == 1 {
      assert ts[0] in ts;
    }
  }

  /** The joined string starts with the first piece and ends with the last. */
  lemma {:induction false} JoinEnds(ts: seq<string>, sep: string)
    requires |ts| > 0
    ensures StartsWith(JoinWith(ts, sep), ts[0])
    ensures EndsWith(JoinWith(ts, sep), ts[|ts| - 1])
    decreases |ts|
  {
    if |ts| > 1 {
      JoinEnds(ts[1..], sep);
      var j := JoinWith(ts, sep);
      var j1 := JoinWith(ts[1..], sep);
      assert j == ts[0] + sep + j1;
      assert j[..|ts[0]|] == ts[0];
      assert ts[1..][|ts[1..]| - 1] == ts[|ts| - 1];
      assert j[|j| - |j1|..] == j1;
    }
  }

  /** Joining pieces without "//" or a slash at either end by single spaces
      creates no "//". */
  lemma {:induction false} JoinSpacesNoDoubleSlash(ts: seq<string>)
    requires forall t :: t in ts ==> NoDoubleSlash(t)
    ensures NoDoubleSlash(JoinWith(ts, " "))
    decreases |ts|
  {
    if |ts| > 1 {
      assert ts[0] in ts;
      assert forall t :: t in ts[1..] ==> t in ts;
      JoinSpacesNoDoubleSlash(ts[1..]);
      var a := ts[0];
      var b := JoinWith(ts[1..], " ");
      var j := a + " " + b;
      forall k | 0 <= k < |j| - 1
        ensures !(j[k] == '/' && j[k + 1] == '/')
      {
        if k + 1 < |a| {
          assert j[k] == a[k] && j[k + 1] == a[k + 1];
        } else if k > |a| {
          assert j[k] == b[k - |a| - 1] && j[k + 1] == b[k - |a|];
        } else {
          assert j[|a|] == ' ';
        }
      }
    } else if |ts| == 1 {
      assert ts[0] in ts;
    }
  }

  /** Stripping a string without "//" leaves none. */
  lemma StripNoDoubleSlash(s: string)
    requires NoDoubleSlash(s)
    ensures NoDoubleSlash(Strip(s))
  {
    var l := StripLeft(s);
    NoDoubleSlashSlice(s, |s| - |l|, |s|);
    NoDoubleSlashSlice(l, 0, |StripRight(l)|);
  }

  /** Cutting at a character that does not occur keeps the whole string. */
  lemma BeforeAbsent(s: string, c: char)
    requires c !in s
    ensures BeforeChar(s, c) == s
  {
  }

  /** Cutting at "//" when there is none keeps the whole string. */
  lemma BeforeDoubleSlashAbsent(s: string)
    requires NoDoubleSlash(s)
    ensures BeforeDoubleSlash(s) == s
  {
  }

  // ------------------------------------------------------------------- decimals

  predicate IsDigit(c: char) {
    '0' <= c <= '9'
  }

  predicate AllDigits(s: string) {
    forall i :: 0 <= i < |s| ==> IsDigit(s[i])
  }

  function DigitChar(d: nat): (c: char)
    requires d < 10
    ensures IsDigit(c)
  {
    (48 + d) as char
  }

  function DigitValue(c: char): (d: nat)
    requires IsDigit(c)
    ensures d < 10
  {
    c as int - 48
  }

  /** Python's `str(n)` for n >= 0: decimal digits without leading zeros. */
  function Decimal(n: nat): (r: string)
    ensures |r| > 0 && AllDigits(r)
    ensures r[0] != '0' || r == "0"
    ensures n == 0 <==> r == "0"
    decreases n
  {
    if n < 10 then [DigitChar(n)] else Decimal(n / 10) + [DigitChar(n % 10)]
  }

  /** The value of a string of decimal digits, leading zeros allowed (`int(s)`). */
  function DigitsValue(s: string): nat
    requires AllDigits(s)
    decreases |s|
  {
    if |s| == 0 then 0 else 10 * DigitsValue(s[..|s| - 1]) + DigitValue(s[|s| - 1])
  }

  /** A decimal numeral as `str` writes one: at least one digit, no leading zero. */
  predicate CanonicalDecimal(s: string) {
    |s| > 0 && AllDigits(s) && (s[0] != '0' || |s| == 1)
  }

  /** `int(s)` on strings of ASCII digits; anything else is rejected. */
  function ParseDecimal(s: string): (r: Option<nat>)
    ensures r.Some? <==> |s| > 0 && AllDigits(s)
  {
    if |s| > 0 && AllDigits(s) then Some(DigitsValue(s)) else None
  }

  /** Reading back what `str(n)` wrote gives n. */
  lemma {:induction false} DecimalRoundTrip(n: nat)
    ensures DigitsValue(Decimal(n)) == n
    ensures ParseDecimal(Decimal(n)) == Some(n)
    decreases n
  {
    var d := Decimal(n);
    if n >= 10 {
      DecimalRoundTrip(n / 10);
      assert d[..|d| - 1] == Decimal(n / 10);
    }
  }

  lemma {:induction false} LeadingDigitBound(s: string)
    requires CanonicalDecimal(s) && s != "0"
    ensures DigitsValue(s) >= 1
    decreases |s|
  {
    if |s| > 1 {
      var p := s[..|s| - 1];
      assert p[0] == s[0];
      LeadingDigitBound(p);
    }
  }

  /** A canonical numeral is exactly what `str` writes for its value. */
  lemma {:induction false} CanonicalRoundTrip(s: string)
    requires CanonicalDecimal(s)
    ensures Decimal(DigitsValue(s)) == s
    decreases |s|
  {
    if |s| > 1 {
      var p := s[..|s| - 1];
      assert p[0] == s[0];
      CanonicalRoundTrip(p);
      LeadingDigitBound(s);
      LeadingDigitBound(p);
      var n := DigitsValue(s);
      assert n / 10 == DigitsValue(p);
      assert n % 10 == DigitValue(s[|s| - 1]);
      assert DigitChar(DigitValue(s[|s| - 1])) == s[|s| - 1];
      assert p + [s[|s| - 1]] == s;
    } else {
      assert DigitChar(DigitValue(s[0])) == s[0];
    }
  }

  /** Different numbers are written differently. */
  lemma DecimalInjective(a: nat, b: nat)
    requires Decimal(a) == Decimal(b)
    ensures a == b
  {
    DecimalRoundTrip(a);
    DecimalRoundTrip(b);
  }

  lemma DecimalShort(n: nat)
    requires n < 1000
    ensures |Decimal(n)| <= 3
  {
    if n >= 100 {
      assert Decimal(n) == Decimal(n / 10) + [DigitChar(n % 10)];
      assert Decimal(n / 10) == Decimal(n / 10 / 10) + [DigitChar(n / 10 % 10)];
      assert |Decimal(n / 10 / 10)| == 1;
    } else if n >= 10 {
      assert Decimal(n) == Decimal(n / 10) + [DigitChar(n % 10)];
    }
  }

  /** How the scanner prints a latency: "-" for the failure sentinel (any
      negative value), the decimal number of milliseconds otherwise. */
  function MsLabel(ms: int): (r: string)
    ensures ms < 0 <==> r == "-"
    ensures ms >= 0 ==> ParseDecimal(r) == Some(ms)
  {
    if ms < 0 then "-"
    else
      DecimalRoundTrip(ms);
      Decimal(ms)
  }
}

=== FILE: tokens.dfy ===
/** How the scanner reads its target list: one line (or one command-line
    argument) at a time, comments cut off, commas and semicolons treated as
    blanks, and each remaining word classified as a single address (with an
    optional ":port" that is dropped), a CIDR block, or something to skip. */
module Tokens {
  import opened Basics
  import opened Text
  import opened IPv4

  // ---------------------------------------------------------------- one token

  /** `_strip_port(s)`: s stripped, cut at its first ':' and stripped again.
      The result has no ':' and no surrounding whitespace; text without a
      ':' is only stripped. */
  function StripPort(s: string): (r: string)
    ensures ':' !in r && Trimmed(r)
    ensures ':' !in Strip(s) ==> r == Strip(s)
    ensures forall c :: c in r ==> c in s
  {
    var t := Strip(s);
    if ':' in t then Strip(BeforeChar(t, ':')) else t
  }

  /** `_is_ip(s)` at the one place the scanner calls it, on the output of
      `_strip_port`: such text has no ':', so it is never an IPv6 literal and
      `ip_address` accepts it exactly when it is an IPv4 dotted quad. */
  predicate IsIp(s: string)
    requires ':' !in s
  {
    ParseAddress(Strip(s)).Some?
  }

  /** The classification `_parse_token` returns. */
  datatype Token =
    | Ip(addr: string)    // ("ip", address text)
    | Cidr(spec: string)  // ("cidr", network text), not yet validated
    | Skip                // (None, None)

  /** `_parse_token(tok)`: a stripped token holding a '/' is a CIDR block,
      taken as is; otherwise the text before any ':' must be an IPv4 address,
      and that text is the result. */
  function ParseToken(tok: string): (r: Token)
    ensures r.Cidr? <==> '/' in Strip(tok)
    ensures r.Cidr? ==> r.spec == Strip(tok) && |r.spec| > 0
    ensures r.Ip? <==> '/' !in Strip(tok) && ParseAddress(StripPort(tok)).Some?
    ensures r.Ip? ==> r.addr == StripPort(tok) && ParseAddress(r.addr).Some?
  {
    var t := Strip(tok);
    if |t| == 0 then Skip
    else if '/' in t then Cidr(t)
    else
      var ip := StripPort(t);
      StripIdempotent(tok);
      if IsIp(ip) then Ip(ip) else Skip
  }

  /** The address a token yields is canonical: no leading zeros, nothing
      around the octets. */
  lemma IpTokenCanonical(tok: string)
    requires ParseToken(tok).Ip?
    ensures Format(ParseAddress(ParseToken(tok).addr).value) == ParseToken(tok).addr
  {
    FormatParse(ParseToken(tok).addr);
  }

  /** The text of an address holds only digits and dots. */
  lemma FormatChars(a: Address)
    ensures forall c :: c in Format(a) ==> IsDigit(c) || c == '.'
    ensures NoSpace(Format(a)) && |Format(a)| > 0
  {
    var o := Octets(a);
    var ds := [Decimal(o[0]), Decimal(o[1]), Decimal(o[2]), Decimal(o[3])];
    var f := Format(a);
    JoinChars(ds, ".", c => IsDigit(c) || c == '.');
    JoinEnds(ds, ".");
    assert forall i :: 0 <= i < |f| ==> f[i] in f;
  }

  /** A host followed by ":port" is read as the host alone. */
  lemma StripPortOfHostPort(h: string, port: string)
    requires NoSpace(h) && |h| > 0 && ':' !in h && NoSpace(port)
    ensures StripPort(h + ":" + port) == h
  {
    var t := h + ":" + port;
    assert NoSpace(t);
    assert Strip(t) == t;
    assert t == h + [':'] + port;
    BeforeCharConcat(h, ':', port);
  }

  /** Whitespace-free text that is an IPv4 address is read as itself, with or
      without a ":port" suffix. */
  lemma AddressToken(h: string, port: string)
    requires ParseAddress(h).Some? && NoSpace(h) && |h| > 0 && ':' !in h && '/' !in h
    requires NoSpace(port) && '/' !in port
    ensures ParseToken(h) == Ip(h)
    ensures ParseToken(h + ":" + port) == Ip(h)
  {
    assert Strip(h) == h;
    var t := h + ":" + port;
    assert NoSpace(t);
    assert Strip(t) == t;
    assert '/' !in t;
    StripPortOfHostPort(h, port);
  }

  /** An address written out, with or without a ":port" suffix, is read
      back as that address. */
  lemma ParseTokenAddress(a: Address, port: string)
    requires NoSpace(port) && '/' !in port
    ensures ParseToken(Format(a)) == Ip(Format(a))
    ensures ParseToken(Format(a) + ":" + port) == Ip(Format(a))
  {
    FormatChars(a);
    ParseFormat(a);
    AddressToken(Format(a), port);
  }

  /** A token whose text before its first ':' has no '.' -- a host name
      with a port, or an IPv6 literal such as "::1" or "[::1]:53" -- yields
      nothing. */
  lemma DotlessHostSkipped(tok: string)
    requires '/' !in Strip(tok) && '.' !in BeforeChar(Strip(tok), ':')
    ensures ParseToken(tok) == Skip
  {
    var t := Strip(tok);
    StripIdempotent(tok);
    var h := StripPort(t);
    assert '.' !in h;
    SplitOnNoSep(h, '.');
  }

  // ----------------------------------------------------------------- one line

  /** `replace(",", " ").replace(";", " ")`. */
  function Separate(s: string): string
  {
    seq(|s|, (i: int) requires 0 <= i < |s| => if s[i] == ',' || s[i] == ';' then ' ' else s[i])
  }

  /** A word `_iter_clean_tokens` can yield. */
  predicate CleanToken(t: string) {
    && |t| > 0
    && NoSpace(t)
    && ',' !in t && ';' !in t && '#' !in t
    && NoDoubleSlash(t)
  }

  /** The part of a stripped line that is not a comment. */
  function Uncommented(line: string): string
  {
    Strip(BeforeDoubleSlash(BeforeChar(line, '#')))
  }

  /** `_iter_clean_tokens` on one line: nothing for a blank line or one that
      starts with '#' or "//"; otherwise the words of the text before any '#'
      or "//", with commas and semicolons counted as blanks. Every word it
      yields is clean. */
  function CleanLine(raw: string): (r: seq<string>)
    ensures forall t :: t in r ==> CleanToken(t)
    ensures StartsWith(Strip(raw), "#") || StartsWith(Strip(raw), "//") ==> r == []
  {
    var line := Strip(raw);
    if |line| == 0 || StartsWith(line, "#") || StartsWith(line, "//") then []
    else
      var u := Uncommented(line);
      var sep := Separate(u);
      UncommentedClean(line);
      SeparateClean(u);
      SplitWsChars(sep);
      SplitWsNoDoubleSlash(sep);
      SplitWs(sep)
  }

  lemma UncommentedClean(line: string)
    ensures '#' !in Uncommented(line) && NoDoubleSlash(Uncommented(line))
  {
    var b := BeforeDoubleSlash(BeforeChar(line, '#'));
    assert '#' !in b;
    StripNoDoubleSlash(b);
  }

  lemma SeparateClean(u: string)
    requires '#' !in u && NoDoubleSlash(u)
    ensures ',' !in Separate(u) && ';' !in Separate(u) && '#' !in Separate(u)
    ensures NoDoubleSlash(Separate(u))
  {
    var s := Separate(u);
    assert forall i :: 0 <= i < |s| ==> (s[i] == '/' <==> u[i] == '/');
  }

  /** A line with no comment and no blanks at its ends is split at its
      blanks, commas and semicolons. */
  lemma CleanLinePlainComma(j: string)
    requires |j| > 0 && Trimmed(j) && NoDoubleSlash(j) && '#' !in j
    ensures CleanLine(j) == SplitWs(Separate(j))
  {
    assert Strip(j) == j;
    NotCommentLine(j);
    UncommentedPlain(j);
  }

  lemma UncommentedPlain(j: string)
    requires Trimmed(j) && NoDoubleSlash(j) && '#' !in j
    ensures Uncommented(j) == j
  {
    BeforeAbsent(j, '#');
    BeforeDoubleSlashAbsent(j);
  }

  lemma SeparatePlain(j: string)
    requires ',' !in j && ';' !in j
    ensures Separate(j) == j
  {
  }

  lemma NotCommentLine(j: string)
    requires |j| > 0 && NoDoubleSlash(j) && '#' !in j
    ensures !StartsWith(j, "#") && !StartsWith(j, "//")
  {
    assert j[0] in j;
    if |j| >= 2 {
      assert !(j[0] == '/' && j[1] == '/');
    }
  }

  /** A line with no comment, comma or semicolon and no blanks at its ends is
      split at its blanks and nothing else. */
  lemma CleanLinePlain(j: string)
    requires |j| > 0 && Trimmed(j) && NoDoubleSlash(j)
    requires '#' !in j && ',' !in j && ';' !in j
    ensures CleanLine(j) == SplitWs(j)
  {
    assert Strip(j) == j;
    NotCommentLine(j);
    UncommentedPlain(j);
    SeparatePlain(j);
  }

  /** A clean word read as a line of its own gives itself back. */
  lemma CleanLineOfClean(t: string)
    requires CleanToken(t)
    ensures CleanLine(t) == [t]
  {
    CleanLinePlain(t);
    assert JoinWith([t], " ") == t;
    SplitWsJoin([t]);
  }

  /** Clean words written on one line separated by single blanks are read
      back as the same words: cleaning inverts `" ".join`. */
  lemma CleanLineJoin(ts: seq<string>)
    requires forall t :: t in ts ==> CleanToken(t)
    ensures CleanLine(JoinWith(ts, " ")) == ts
  {
    if |ts| > 0 {
      var j := JoinWith(ts, " ");
      var first, last := ts[0], ts[|ts| - 1];
      assert first in ts && last in ts;
      JoinEnds(ts, " ");
      assert j[0] == first[0];
      assert j[|j| - 1] == last[|last| - 1];
      JoinChars(ts, " ", c => c != '#' && c != ',' && c != ';');
      JoinSpacesNoDoubleSlash(ts);
      CleanLinePlain(j);
      SplitWsJoin(ts);
    }
  }

  /** Stripping a word followed by more text keeps the word and everything
      up to the non-blank character at position m of the rest. */
  lemma StripKeepsFront(j: string, rest: string, m: nat)
    requires |j| > 0 && !IsSpace(j[0]) && m < |rest| && !IsSpace(rest[m])
    ensures |j| + m < |Strip(j + rest)| <= |j| + |rest|
    ensures Strip(j + rest) == j + rest[..|Strip(j + rest)| - |j|]
  {
    var s := j + rest;
    assert StripLeft(s) == s;
    var r := StripRight(s);
    assert s[|j| + m] == rest[m];
    assert s[..|r|] == j + rest[..|r| - |j|];
  }

  /** The stripped text of a line that starts with a word does not start a
      comment. */
  lemma WordLineNotComment(j: string, t: string)
    requires |j| > 0 && NoDoubleSlash(j) && '#' !in j
    requires |t| > |j| && t[..|j|] == j && t[|j|] == ' '
    ensures !StartsWith(t, "#") && !StartsWith(t, "//")
  {
    assert t[0] == j[0] && j[0] in j;
    if |j| >= 2 {
      assert t[1] == j[1];
      assert !(j[0] == '/' && j[1] == '/');
    }
  }

  /** A comment after " #" is dropped: the line yields the words of the text
      before it. */
  lemma CleanLineHashComment(j: string, c: string)
    requires |j| > 0 && Trimmed(j) && NoDoubleSlash(j) && '#' !in j
    ensures CleanLine(j + " #" + c) == CleanLine(j)
  {
    var rest := " #" + c;
    assert j + " #" + c == j + rest;
    StripKeepsFront(j, rest, 1);
    var t := Strip(j + rest);
    var k := |t| - |j| - 2;
    assert t == (j + " ") + ['#'] + c[..k];
    BeforeCharConcat(j + " ", '#', c[..k]);
    WordThenSpace(j);
    BeforeDoubleSlashAbsent(j + " ");
    assert Uncommented(t) == j;
    WordLineNotComment(j, t);
    CleanLinePlainComma(j);
  }

  /** The text before a " //" comment that follows a word is the word. */
  lemma UncommentedSlash(j: string, x: string)
    requires |j| > 0 && Trimmed(j) && NoDoubleSlash(j) && '#' !in j
    ensures Uncommented(j + " //" + x) == j
  {
    BeforeCharAppend(j + " //", x, '#');
    WordThenSpace(j);
    assert (j + " //") + BeforeChar(x, '#') == (j + " ") + "//" + BeforeChar(x, '#');
    BeforeDoubleSlashConcat(j + " ", BeforeChar(x, '#'));
  }

  /** A comment after " //" is dropped as well. */
  lemma CleanLineSlashComment(j: string, c: string)
    requires |j| > 0 && Trimmed(j) && NoDoubleSlash(j) && '#' !in j
    ensures CleanLine(j + " //" + c) == CleanLine(j)
  {
    var rest := " //" + c;
    assert j + " //" + c == j + rest;
    StripKeepsFront(j, rest, 2);
    var t := Strip(j + rest);
    var k := |t| - |j| - 3;
    assert t == j + " //" + c[..k];
    UncommentedSlash(j, c[..k]);
    WordLineNotComment(j, t);
    CleanLinePlainComma(j);
  }

  // ------------------------------------------------------------- many lines

  /** `_iter_clean_tokens(lines)`: the clean words of every line, in order. */
  function CleanTokens(lines: seq<string>): (r: seq<string>)
    ensures forall t :: t in r ==> CleanToken(t)
  {
    if |lines| == 0 then [] else CleanLine(lines[0]) + CleanTokens(lines[1..])
  }

  /** Clean words, each read as a line of its own, come back unchanged. */
  lemma {:induction false} CleanTokensOfClean(ts: seq<string>)
    requires forall t :: t in ts ==> CleanToken(t)
    ensures CleanTokens(ts) == ts
  {
    if |ts| > 0 {
      var head, tail := ts[0], ts[1..];
      assert ts == [head] + tail;
      assert head in ts;
      assert forall t :: t in tail ==> t in ts;
      CleanLineOfClean(head);
      CleanTokensOfClean(tail);
      calc {
        CleanTokens(ts);
        CleanLine(head) + CleanTokens(tail);
        [head] + tail;
      }
    }
  }

  /** Cleaning is idempotent. */
  lemma CleanTokensIdempotent(lines: seq<string>)
    ensures CleanTokens(CleanTokens(lines)) == CleanTokens(lines)
  {
    CleanTokensOfClean(CleanTokens(lines));
  }

  /** `_file_has_plain_ip` on the lines of a readable file: some clean word
      is a single address. */
  predicate HasPlainIp(lines: seq<string>) {
    exists t :: t in CleanTokens(lines) && ParseToken(t).Ip?
  }
}
